=== FILE: README.md ===
# ZynapseManus WhatsApp core, modelled in Dafny

This project models three pieces of the Zynapse WhatsApp tooling:

- **The operator dashboard** (`frontend/assets/js/whatsapp-dashboard.js`).
  - `processConversations` groups the message list by phone. Each conversation remembers its latest message, its last activity and an unread counter. The conversations are listed newest first.
  - `calculateStats` derives the headline figures.
  - `openConversation` clears a conversation's unread counter.
  - `sendMessage` appends an outgoing message and rebuilds everything.
  - `formatPhone` lays out a 13-digit number as `+55 (11) 99999-9999`.
  - The development data set of `getMockMessages` is proved to give the figures it should produce.
- **The bot's conversation memory** (`whatsapp-bot/ai-integration.js`).
  - `generateAIResponse` records the user turn and cuts the memory to ten turns. It builds the chat request, then either stores the trimmed reply or returns the fixed apology.
  - `clearConversationHistory` empties a phone's memory.
- **The administrator's AI settings** (`backend/routes/ai_training.py`).
  - `load_ai_config` supplies a default or fallback configuration.
  - `save_ai_config` writes it.
  - `update_ai_prompt` and `update_ai_parameters` validate a request and update the stored settings.

The modules follow the source:

| module | file | content |
|---|---|---|
| `Options` | `options.dfy` | `Option`, for JS `null`/`undefined` and missing keys |
| `Conversations` | `conversations.dfy` | message and conversation records, grouping, per-phone summary, stable newest-first sort |
| `DashboardStats` | `dashboard_stats.dfy` | direction counts, response rate, `calculateStats` |
| `DashboardState` | `dashboard.dfy` | the component state and its operations, plus the development data |
| `PhoneFormat` | `phone_format.dfy` | `formatPhone` |
| `JsText` | `js_text.dfy` | `String.prototype.trim`, as the bot applies it to a reply |
| `AiHistory` | `ai_history.dfy` | the bot's per-phone memory and chat request |
| `AiConfig` | `ai_config.dfy` | configuration file, load/save, both update routes |

Several things that the source receives from its environment are parameters of the model:

- the clock;
- the `Date.now()` message id;
- the outcome of the chat-completion call;
- whether the configuration file exists, parses and can be written, and whether its directory exists.

Every operation is a pure function from the old state to the new one.

Timestamps are integers, in seconds since the epoch. The dashboard compares `new Date(...)` values, and `new Date(null)` is the epoch, so a missing activity sorts as 0. A JSON number in the settings routes is held as the real value Python's JSON parser delivers: an integer literal exactly, any other number after rounding to a double. The range checks then compare exactly the values the route compares.

Some behaviours of the code are easy to misread; the model follows the code exactly:

- When two messages of a phone have the same timestamp, the one that arrived first supplies the summary. The comparison is a strict `>`.
- A pending message counts as unread only if it was a strict new maximum when it arrived.
- Conversations with equal activity keep the key insertion order of `Object.values`. The sort is stable.
- When the chat-completion call fails, the user turn that was already recorded stays in the memory.

## Model

| member | source | states |
|---|---|---|
| Conversations.Group | frontend/assets/js/whatsapp-dashboard.js:70-96 | the index has exactly one entry per distinct phone of the message list, keyed by that phone |
| Conversations.FirstIndex | frontend/assets/js/whatsapp-dashboard.js:72-81 | the position of a phone's first message: that message has the phone, none before it does, and it exists iff the phone occurs |
| Conversations.FirstSeen | frontend/assets/js/whatsapp-dashboard.js:73-81 | the key order of the index: each phone once, exactly the phones that occur, in the order of their first messages |
| Conversations.GroupIsPerPhoneThread | frontend/assets/js/whatsapp-dashboard.js:72-96 | each entry is what the loop builds from that phone's messages alone, in arrival order; other phones never influence it |
| Conversations.ThreadShape | frontend/assets/js/whatsapp-dashboard.js:73-83 | a conversation keeps its phone and all its messages in order; its summary is empty only when it has no messages |
| Conversations.ThreadLatest | frontend/assets/js/whatsapp-dashboard.js:85-89 | the last activity is the largest timestamp; the last message is the body of the earliest message carrying that timestamp |
| Conversations.LatestStep | frontend/assets/js/whatsapp-dashboard.js:86-89 | one more message either becomes the new first maximum (strictly later) or leaves maximum and first index unchanged |
| Conversations.ThreadUnread | frontend/assets/js/whatsapp-dashboard.js:91-94 | the unread counter equals the number of received, not-read messages that were a strict new maximum when they arrived |
| Conversations.PendingNewLatestAtMostPending | frontend/assets/js/whatsapp-dashboard.js:91-94 | the unread counter never exceeds the number of received, not-read messages |
| Conversations.IndexedConversation | frontend/assets/js/whatsapp-dashboard.js:68-96 | a phone is indexed iff it occurs; its entry holds its messages in order, the latest timestamp, the first body reaching it, and the unread count described above |
| Conversations.OfPhoneEmpty | frontend/assets/js/whatsapp-dashboard.js:73-81 | a phone has no messages exactly when it does not occur, so a new entry starts empty |
| Conversations.TieKeepsEarlierArrival | frontend/assets/js/whatsapp-dashboard.js:86-88 | of two messages with equal timestamps, the earlier arrival's body stays the last message |
| Conversations.OutOfOrderPendingNotCounted | frontend/assets/js/whatsapp-dashboard.js:86-94 | a pending message older than one already seen is not counted, although one message is pending |
| Conversations.Insert | frontend/assets/js/whatsapp-dashboard.js:99-101 | inserting into a newest-first list keeps it newest first and adds exactly that element |
| Conversations.SortNewestFirst | frontend/assets/js/whatsapp-dashboard.js:99-101 | the result is newest first and a permutation of the input |
| Conversations.InsertIsStable | frontend/assets/js/whatsapp-dashboard.js:99-101 | an element ranked before all others is inserted ahead of every element of equal activity, so ties stay in rank order |
| Conversations.SortIsStable | frontend/assets/js/whatsapp-dashboard.js:99-101 | stability: conversations of equal activity leave the sort in input order |
| Conversations.Values | frontend/assets/js/whatsapp-dashboard.js:99 | `Object.values` in key order: one value per key, position by position |
| Conversations.ConversationListIsSortedPermutation | frontend/assets/js/whatsapp-dashboard.js:98-101 | the listing is newest first, has one element per distinct phone, is a permutation of the index's values, and holds exactly the index's entries |
| Conversations.ConversationListIsStable | frontend/assets/js/whatsapp-dashboard.js:72-101 | conversations of equal activity are listed in the order their phones' first messages arrived |
| Conversations.LatestListedFirst | frontend/assets/js/whatsapp-dashboard.js:99-101 | the conversation whose activity is strictly the latest is listed first |
| DashboardStats.CountDirection | frontend/assets/js/whatsapp-dashboard.js:107-108 | a direction count never exceeds the number of messages |
| DashboardStats.DirectionCountsBounded | frontend/assets/js/whatsapp-dashboard.js:107-108 | the incoming and outgoing counts together never exceed the total |
| DashboardStats.CountDirectionAppend | frontend/assets/js/whatsapp-dashboard.js:106-108 | appending a message raises only its own direction's count, by one |
| DashboardStats.ResponseRate | frontend/assets/js/whatsapp-dashboard.js:112-114 | 0 with no received messages; otherwise the integer nearest to 100·out/in with halves rounded up; at most 100 when out ≤ in |
| DashboardStats.RateCanExceedHundred | frontend/assets/js/whatsapp-dashboard.js:112-114 | the rate is not capped: 3 sent for 2 received gives 150 |
| DashboardStats.CalculateStats | frontend/assets/js/whatsapp-dashboard.js:104-118 | total is the list length; incoming and outgoing are the direction counts, and in + out ≤ total; active is the number of indexed phones; the rate is `ResponseRate` of those two counts, with the bounds above; the fixed "2m 30s" |
| DashboardState.ProcessConversations | frontend/assets/js/whatsapp-dashboard.js:68-102 | the index becomes `Group` and the listing `ConversationList` of the message list alone (keys are the phones, each entry's messages are its phone's), newest first, one listed per entry; nothing else in the state changes |
| DashboardState.RecalculateStats | frontend/assets/js/whatsapp-dashboard.js:104-118 | total is the number of messages, incoming and outgoing their direction counts, active the number of indexed phones, the rate `ResponseRate` of the two counts, the average the fixed text; every other field of the state is kept |
| DashboardState.LoadMessages | frontend/assets/js/whatsapp-dashboard.js:42-46 | the fetched list replaces the messages, index and listing are `Group` and `ConversationList` of it, figures are current, active conversations equal the distinct phones fetched, and the phone, text field, open conversation and view flag are kept |
| DashboardState.RebuildIsIdempotent | frontend/assets/js/whatsapp-dashboard.js:68-70 | the rebuilt index and listing depend only on the messages, so rebuilding twice equals rebuilding once |
| DashboardState.ZeroUnread | frontend/assets/js/whatsapp-dashboard.js:126-127 | the listed object of the opened phone gets a zero counter, every other element is untouched |
| DashboardState.OpenConversation | frontend/assets/js/whatsapp-dashboard.js:120-141 | a known phone's counter becomes 0 in the index and in every listed element of that phone, which otherwise stays as it was, and it becomes the current conversation; an unknown phone changes no conversation; messages, figures, the text field, other conversations and the listing's phones and activities stay |
| DashboardState.OpenConversationKeepsOrder | frontend/assets/js/whatsapp-dashboard.js:120-128 | opening keeps the listing newest first and current figures current |
| DashboardState.SendMessage | frontend/assets/js/whatsapp-dashboard.js:148-178 | with an empty phone or text nothing changes; otherwise exactly one outgoing `sent` message is appended, index and listing are rebuilt from the new list, figures are current, the text field is cleared, and the phone, the open conversation and the view flag stay |
| DashboardState.SendMessageCounts | frontend/assets/js/whatsapp-dashboard.js:159-170 | a send raises total and outgoing by one and leaves incoming unchanged |
| DashboardState.SendAfterOpenRecountsUnread | frontend/assets/js/whatsapp-dashboard.js:168-169 | after a send the index is recomputed from the messages, so an unread counter zeroed by opening is recounted |
| DashboardState.MockGroup | frontend/assets/js/whatsapp-dashboard.js:230-288 | the development data has three phones; only 5511777777777 has an unread message; the last activities are the latest timestamps |
| DashboardState.MockFirstSeen | frontend/assets/js/whatsapp-dashboard.js:230-288 | the phones appear in the order 5511999999999, 5511888888888, 5511777777777 |
| DashboardState.MockCounts | frontend/assets/js/whatsapp-dashboard.js:230-288 | the development data has four received and three sent messages |
| DashboardState.MockDashboardStats | frontend/assets/js/whatsapp-dashboard.js:230-288 | loading the development data gives 7 messages, 4 in, 3 out, 3 conversations and a 75% rate |
| DashboardState.MockDashboardConversations | frontend/assets/js/whatsapp-dashboard.js:230-288 | loading the development data leaves one unread message, for 5511777777777, whose conversation is listed first |
| PhoneFormat.FormatPhone | frontend/assets/js/whatsapp-dashboard.js:217-227 | empty stays empty; any length but 13 is shown unchanged; 13 characters give 19 with `+`, ` (`, `) ` and `-` at their fixed places |
| PhoneFormat.FormatPhoneRoundTrip | frontend/assets/js/whatsapp-dashboard.js:222-224 | dropping the six layout characters gives back the phone |
| PhoneFormat.FormatPhoneKeepsDigits | frontend/assets/js/whatsapp-dashboard.js:222-224 | for an all-digit phone, the digits of the formatted text, in order, are the phone |
| JsText.TrimStart | whatsapp-bot/ai-integration.js:62 | the result is a suffix; everything dropped is white space or a line terminator; it does not start with one |
| JsText.TrimEnd | whatsapp-bot/ai-integration.js:62 | the result is a prefix; everything dropped is white space or a line terminator; it does not end with one |
| JsText.Trim | whatsapp-bot/ai-integration.js:62 | the trimmed reply neither starts nor ends with white space and is no longer than the raw one |
| JsText.TrimRemovesOnlyEnds | whatsapp-bot/ai-integration.js:62 | the trimmed reply is a contiguous piece of the raw one, and everything around it is white space |
| JsText.TrimIdempotent | whatsapp-bot/ai-integration.js:62 | trimming twice equals trimming once |
| AiHistory.HistoryOf | whatsapp-bot/ai-integration.js:24-26 | a phone never seen starts with no turns |
| AiHistory.KeepRecent | whatsapp-bot/ai-integration.js:31-34 | the cut keeps the last min(n, 10) turns, in order |
| AiHistory.Window | whatsapp-bot/ai-integration.js:23-34 | after recording the user turn and cutting, between 1 and 10 turns are stored |
| AiHistory.WindowKeepsMostRecent | whatsapp-bot/ai-integration.js:28-34 | the stored turns are the most recent ones, in order, their number is min(old + 1, 10), and the newest is the user turn |
| AiHistory.BuildPrompt | whatsapp-bot/ai-integration.js:37-43 | the prompt is the system turn followed by the stored turns, unchanged |
| AiHistory.GenerateAIResponse | whatsapp-bot/ai-integration.js:21-82 | only the caller's phone changes; the request uses model llama3-70b-8192, 150 tokens, temperature 0.7, with 2 to 11 turns; a reply is trimmed, stored and returned; a failure returns the apology and stores no assistant turn; at most 11 turns stay stored |
| AiHistory.StoredAfterCall | whatsapp-bot/ai-integration.js:62-65 | the caller's stored turns are the cut memory followed by the reply turn, if any |
| AiHistory.ClearConversationHistory | whatsapp-bot/ai-integration.js:87-93 | answers true iff the phone is known, even with an already empty list; a known phone's list becomes empty; an unknown phone changes nothing |
| AiHistory.ClearTwice | whatsapp-bot/ai-integration.js:87-93 | a second clear still answers true and changes nothing more |
| AiHistory.BoundedIsInvariant | whatsapp-bot/ai-integration.js:31-34 | both operations keep every stored list at 11 turns or fewer |
| AiHistory.StoredIsRecentTurns | whatsapp-bot/ai-integration.js:29-65 | the caller's new memory is a suffix of everything said with that phone |
| AiHistory.GenerateRetainsRecentTurns | whatsapp-bot/ai-integration.js:21-82 | over any run of calls, each phone's memory is the most recent stretch of its full transcript |
| AiHistory.ClearRetainsRecentTurns | whatsapp-bot/ai-integration.js:87-93 | clearing keeps that relation |
| AiConfig.SaveAiConfig | backend/routes/ai_training.py:46-57 | reports success iff the file can be written, and then the directory exists and the file holds the whole configuration; on failure nothing changes |
| AiConfig.LoadAiConfig | backend/routes/ai_training.py:19-43 | an existing object is returned as read; a missing file is created with the default settings only if its directory exists and it can be written; a read error, or a failed creation, gives the short fallback and writes nothing |
| AiConfig.UpdateAiPrompt | backend/routes/ai_training.py:84-105 | accepted iff a non-empty prompt is given and the file is writable; a missing or empty prompt is a 400 and touches nothing; a failed save is a 500; on success the loaded configuration with the new prompt is stored |
| AiConfig.ValidateParameters | backend/routes/ai_training.py:125-145 | passes iff both values are numbers (or booleans) with temperature in [0, 1] and max_tokens in [50, 500]; a null or missing value is a 400 first; a non-numeric value is a 500 naming its Python type; then the two range errors, in the source's order |
| AiConfig.UpdateAiParameters | backend/routes/ai_training.py:124-161 | accepted iff validation passes and the file is writable; a rejection touches nothing; on success both values are stored exactly as sent and every other key is kept |
| AiConfig.PromptUpdateIsLoaded | backend/routes/ai_training.py:93-105 | after a successful prompt update, the next load returns the new prompt and every other key unchanged |
| AiConfig.ParametersUpdateIsLoaded | backend/routes/ai_training.py:147-161 | after a successful parameters update, the next load returns both new values and every other key unchanged |
| AiConfig.ParametersUpdateIdempotent | backend/routes/ai_training.py:147-161 | repeating an accepted parameters update gives the same reply and the same file |
| AiConfig.ShippedSettingsAreValid | backend/routes/ai_training.py:26-43 | the default and fallback settings, and the bot's own 0.7 and 150, pass the parameters route's validation |
| AiConfig.MissingFileStoredPrompt | backend/routes/ai_training.py:19-57 | with no file, an accepted parameters update stores the default prompt if the directory exists and the short fallback prompt if it does not, since only saving creates the directory |
| AiConfig.BooleanTemperatureAccepted | backend/routes/ai_training.py:135-139 | a boolean `true` temperature passes the range check, since Python compares it as 1 |

## Left out

- DashboardStats.ResponseRate: uses exact rational rounding. JavaScript divides in doubles before `Math.round`, and at an exact half the product can land just below it. For example, 23 sent for 40 received gives 57 in the browser and 58 here.
- Timestamps are whole seconds. The source's ISO strings can carry milliseconds, which only refines the order.
- Polling, timers, the `loading` and `sending` flags, `alert`, `formatDate`, `closeConversation`, the search and date filters, and the commented-out production `fetch` calls are not modelled. They are user-interface or network plumbing; apart from the deferred send below, they do not affect the state the core computes.
- DashboardState.SendMessage: treats the empty-field check and the append one second later as one step. In the source the check runs at the call, but the message is built from the phone and text fields only when the timer fires, and nothing consults `sending`. Two sends within one second both pass the check; the first clears the text, so the second appends an outgoing message with empty text. The model cannot produce that message.
- The `currentConversation` object alias is modelled as the open phone. After a rebuild the open conversation object is the stale one from before it, and `sendMessage` pushes the new message onto it once, while the rebuilt index holds the message as well. That stale copy is not part of the index.
- Object key order is simplified: keys are kept in insertion order. JavaScript's `Object.values` lists array-index keys first. Those are canonical decimal numbers below 2^32 − 1, such as a short all-digit phone. Because the sort is stable, this changes only the order of conversations with equal activity. 13-digit phones are not array indices. The special key `__proto__` is not modelled.
- String lengths count Unicode scalar values, not UTF-16 code units. This matters to `formatPhone` only for non-BMP characters.
- AiHistory.GenerateAIResponse: takes the system text as a parameter. `DexterResponse` passes the deployed wording of line 40; no property depends on that wording.
- Interleaving of concurrent `generateAIResponse` calls for the same phone across the `await` is not modelled. Each call is atomic here.
- The HTTP call to the chat-completion service, its headers and the API key check at start-up are not modelled. Logging to the console is not modelled.
- `get_ai_config`, authentication (`get_current_active_user`) and the router set-up are not modelled. `get_ai_config` only returns `load_ai_config`'s result.
- AiConfig.SaveAiConfig: a write failure is modelled as nothing changing. A failure halfway through `json.dump` would leave a truncated file, and a directory created before the file fails to open would remain; neither is modelled.
- AiConfig.LoadAiConfig: a file that parses to something other than a JSON object is not modelled. The routes would then raise a `TypeError` on assignment.
- AiConfig.ValidateParameters: NaN and infinities, which Python's JSON parser accepts, are not modelled. Parsing itself is not modelled either: `Num` holds the value after rounding to a double, so a text such as `1.00000000000000001` (parsed as 1.0) or `-1e-400` (parsed as -0.0) must be given as that parsed value, and stating it as the exact decimal would be rejected where the route accepts it.
- Inherited property names are not modelled. Both `conversations` objects are plain JavaScript objects, so a phone such as `constructor` or `toString` already finds a truthy inherited value. For such a phone `generateAIResponse` throws at the `push`, returns the apology and stores nothing; `clearConversationHistory` answers true; `processConversations` throws. The model treats such a phone like any other.
- FastAPI rejects a `/prompt` body whose values are not strings with a 422 before the route runs. That is not modelled: the route's input is a map of strings.

=== FILE: ai_config.dfy ===
/**
 * The administrator's AI configuration routes (`backend/routes/ai_training.py`):
 * `load_ai_config`, `save_ai_config`, and the validation and update logic of
 * `update_ai_prompt` and `update_ai_parameters`.
 *
 * The configuration file is a `Disk`: what the file holds, whether its
 * directory exists, and whether writing to it succeeds. JSON values are the
 * cases the routes distinguish; a number is held as the value Python's JSON
 * parser delivers: an integer literal exactly, any other number after
 * rounding to a double, so the range checks compare exactly what the route
 * compares.
 */
module AiConfig {
  import opened Options
  import AiHistory

  datatype Value = Null | Bool(b: bool) | Num(x: real) | Str(s: string) | Arr | Obj

  /** A decoded JSON object. */
  type Config = map<string, Value>

  /** The file as `load_ai_config` finds it: missing, a JSON object, or unreadable (I/O or JSON error). */
  datatype ConfigFile = Absent | Holds(config: Config) | Unreadable

  /**
   * `dirExists` says whether the file's directory is there; `writable`
   * decides whether opening the file for writing succeeds once it is.
   * Only `save_ai_config` creates the directory first.
   */
  datatype Disk = Disk(file: ConfigFile, dirExists: bool, writable: bool)

  datatype Loaded = Loaded(config: Config, disk: Disk)

  /** A route's reply: `{"success": true, "message": …}` or an `HTTPException`. */
  datatype Response = Ok(message: string) | HttpError(status: int, detail: string)

  datatype Reply = Reply(response: Response, disk: Disk)

  const BAD_REQUEST := 400
  const SERVER_ERROR := 500

  const DEFAULT_PROMPT := "Você é um assistente virtual da Zynapse, uma empresa de automação comercial. Seja cordial, profissional e conciso. Limite suas respostas a 3-4 frases no máximo. Ofereça ajuda sobre produtos de automação comercial, atendimento ao cliente e agendamento de demonstrações."
  const FALLBACK_PROMPT := "Você é um assistente virtual da Zynapse."

  const PROMPT_REQUIRED := "Prompt é obrigatório"
  const SAVE_FAILED := "Erro ao salvar configuração da IA"
  const PROMPT_UPDATED := "Prompt da IA atualizado com sucesso"
  const PARAMETERS_REQUIRED := "Temperatura e max_tokens são obrigatórios"
  const TEMPERATURE_RANGE := "Temperatura deve estar entre 0 e 1"
  const MAX_TOKENS_RANGE := "max_tokens deve estar entre 50 e 500"
  const PARAMETERS_UPDATED := "Parâmetros da IA atualizados com sucesso"
  const PARAMETERS_FAILED := "Erro ao atualizar parâmetros da IA: "

  /**
   * The settings the source writes out literally. They are given as exact
   * decimals: Python's `0.7` is the nearest double, just below 0.7, which no
   * range check tells apart from 0.7 itself.
   */
  function Settings(prompt: string): Config {
    map["prompt" := Str(prompt), "temperature" := Num(0.7), "max_tokens" := Num(150.0)]
  }

  /** What the file is given when it does not exist yet. */
  function DefaultConfig(): Config { Settings(DEFAULT_PROMPT) }

  /** What is returned when reading (or creating) the file raises. */
  function FallbackConfig(): Config { Settings(FALLBACK_PROMPT) }

  /**
   * `save_ai_config`: creates the directory if needed, then writes the whole
   * object when the file can be opened for writing.
   */
  function SaveAiConfig(disk: Disk, config: Config): (r: (bool, Disk))
    ensures r.0 <==> disk.writable
    ensures r.0 ==> r.1 == Disk(Holds(config), true, true)
    ensures !r.0 ==> r.1 == disk
  {
    if disk.writable then (true, Disk(Holds(config), true, disk.writable)) else (false, disk)
  }

  /**
   * `load_ai_config`: an existing file is read as it is; a missing one is
   * created with the default settings, without creating its directory; any
   * exception yields the short fallback settings and leaves the disk as it was.
   */
  function LoadAiConfig(disk: Disk): (r: Loaded)
    ensures disk.file.Holds? ==> r == Loaded(disk.file.config, disk)
    ensures disk.file.Unreadable? ==> r == Loaded(FallbackConfig(), disk)
    ensures disk.file.Absent? && disk.dirExists && disk.writable ==>
              r == Loaded(DefaultConfig(), Disk(Holds(DefaultConfig()), true, true))
    ensures disk.file.Absent? && !(disk.dirExists && disk.writable) ==> r == Loaded(FallbackConfig(), disk)
  {
    match disk.file
    case Holds(c) => Loaded(c, disk)
    case Unreadable => Loaded(FallbackConfig(), disk)
    case Absent =>
      if disk.dirExists && disk.writable then Loaded(DefaultConfig(), disk.(file := Holds(DefaultConfig())))
      else Loaded(FallbackConfig(), disk)
  }

  /**
   * `update_ai_prompt`. A missing or empty prompt is rejected with 400
   * before the configuration is loaded; otherwise the loaded configuration
   * gets the new prompt and is saved, and a failed save is a 500.
   */
  function UpdateAiPrompt(data: map<string, string>, disk: Disk): (r: Reply)
    ensures r.response.Ok? <==> "prompt" in data && data["prompt"] != [] && disk.writable
    ensures ("prompt" !in data || data["prompt"] == []) ==> r == Reply(HttpError(BAD_REQUEST, PROMPT_REQUIRED), disk)
    ensures "prompt" in data && data["prompt"] != [] && !disk.writable ==>
              r == Reply(HttpError(SERVER_ERROR, SAVE_FAILED), disk)
    ensures r.response.Ok? ==>
              r.response.message == PROMPT_UPDATED &&
              r.disk == Disk(Holds(LoadAiConfig(disk).config["prompt" := Str(data["prompt"])]), true, true)
  {
    if "prompt" !in data || data["prompt"] == [] then
      Reply(HttpError(BAD_REQUEST, PROMPT_REQUIRED), disk)
    else
      var loaded := LoadAiConfig(disk);
      var config := loaded.config["prompt" := Str(data["prompt"])];
      var (ok, written) := SaveAiConfig(loaded.disk, config);
      if !ok then Reply(HttpError(SERVER_ERROR, SAVE_FAILED), written)
      else Reply(Ok(PROMPT_UPDATED), written)
  }

  /** Python's `0 <= v` and `v <= 1` on a decoded JSON value: booleans are 0 and 1, numbers are themselves. */
  function AsNumber(v: Value): Option<real> {
    match v
    case Bool(b) => Some(if b then 1.0 else 0.0)
    case Num(x) => Some(x)
    case _ => None
  }

  /** The Python type name that a failed comparison reports. */
  function PyTypeName(v: Value): string {
    match v
    case Null => "NoneType"
    case Bool(_) => "bool"
    case Num(_) => "float"
    case Str(_) => "str"
    case Arr => "list"
    case Obj => "dict"
  }

  /** The 500 reply for the `TypeError` raised by comparing an int with `v`. */
  function Unordered(v: Value): Response {
    HttpError(SERVER_ERROR, PARAMETERS_FAILED + "'<=' not supported between instances of 'int' and '" + PyTypeName(v) + "'")
  }

  predicate InRange(v: Value, lo: real, hi: real) {
    AsNumber(v).Some? && lo <= AsNumber(v).value <= hi
  }

  function Get(data: map<string, Value>, key: string): Value {
    if key in data then data[key] else Null
  }

  /**
   * The checks of `update_ai_parameters`, in the order the route makes
   * them; `None` means the request passes.
   */
  function ValidateParameters(t: Value, m: Value): (r: Option<Response>)
    ensures r.None? <==> InRange(t, 0.0, 1.0) && InRange(m, 50.0, 500.0)
    ensures (t.Null? || m.Null?) ==> r == Some(HttpError(BAD_REQUEST, PARAMETERS_REQUIRED))
    ensures !t.Null? && !m.Null? && AsNumber(t).None? ==> r == Some(Unordered(t))
    ensures !m.Null? && AsNumber(t).Some? && !InRange(t, 0.0, 1.0) ==> r == Some(HttpError(BAD_REQUEST, TEMPERATURE_RANGE))
    ensures InRange(t, 0.0, 1.0) && AsNumber(m).None? && !m.Null? ==> r == Some(Unordered(m))
    ensures InRange(t, 0.0, 1.0) && AsNumber(m).Some? && !InRange(m, 50.0, 500.0) ==> r == Some(HttpError(BAD_REQUEST, MAX_TOKENS_RANGE))
  {
    if t.Null? || m.Null? then Some(HttpError(BAD_REQUEST, PARAMETERS_REQUIRED))
    else if AsNumber(t).None? then Some(Unordered(t))
    else if !(0.0 <= AsNumber(t).value <= 1.0) then Some(HttpError(BAD_REQUEST, TEMPERATURE_RANGE))
    else if AsNumber(m).None? then Some(Unordered(m))
    else if !(50.0 <= AsNumber(m).value <= 500.0) then Some(HttpError(BAD_REQUEST, MAX_TOKENS_RANGE))
    else None
  }

  /**
   * `update_ai_parameters`. A rejected request never loads the
   * configuration, so the disk stays as it was; an accepted one stores
   * both values exactly as sent (a boolean stays a boolean) and nothing
   * else of the loaded configuration changes.
   */
  function UpdateAiParameters(data: map<string, Value>, disk: Disk): (r: Reply)
    ensures r.response.Ok? <==> InRange(Get(data, "temperature"), 0.0, 1.0) && InRange(Get(data, "max_tokens"), 50.0, 500.0) && disk.writable
    ensures ValidateParameters(Get(data, "temperature"), Get(data, "max_tokens")).Some? ==>
              r == Reply(ValidateParameters(Get(data, "temperature"), Get(data, "max_tokens")).value, disk)
    ensures ValidateParameters(Get(data, "temperature"), Get(data, "max_tokens")).None? && !disk.writable ==>
              r == Reply(HttpError(SERVER_ERROR, SAVE_FAILED), disk)
    ensures r.response.Ok? ==>
              r.response.message == PARAMETERS_UPDATED &&
              r.disk == Disk(Holds(LoadAiConfig(disk).config["temperature" := data["temperature"]]["max_tokens" := data["max_tokens"]]), true, true)
  {
    var t := Get(data, "temperature");
    var m := Get(data, "max_tokens");
    match ValidateParameters(t, m)
    case Some(rejection) => Reply(rejection, disk)
    case None =>
      var loaded := LoadAiConfig(disk);
      var config := loaded.config["temperature" := t]["max_tokens" := m];
      var (ok, written) := SaveAiConfig(loaded.disk, config);
      if !ok then Reply(HttpError(SERVER_ERROR, SAVE_FAILED), written)
      else Reply(Ok(PARAMETERS_UPDATED), written)
  }

  /** A successful prompt update is what the next load returns, with every other key as before. */
  lemma PromptUpdateIsLoaded(data: map<string, string>, disk: Disk)
    requires UpdateAiPrompt(data, disk).response.Ok?
    ensures LoadAiConfig(UpdateAiPrompt(data, disk).disk).config["prompt"] == Str(data["prompt"])
    ensures forall k :: k in LoadAiConfig(disk).config && k != "prompt" ==>
              k in LoadAiConfig(UpdateAiPrompt(data, disk).disk).config &&
              LoadAiConfig(UpdateAiPrompt(data, disk).disk).config[k] == LoadAiConfig(disk).config[k]
  {
  }

  /** A successful parameters update is what the next load returns, with every other key as before. */
  lemma ParametersUpdateIsLoaded(data: map<string, Value>, disk: Disk)
    requires UpdateAiParameters(data, disk).response.Ok?
    ensures LoadAiConfig(UpdateAiParameters(data, disk).disk).config["temperature"] == data["temperature"]
    ensures LoadAiConfig(UpdateAiParameters(data, disk).disk).config["max_tokens"] == data["max_tokens"]
    ensures forall k :: k in LoadAiConfig(disk).config && k != "temperature" && k != "max_tokens" ==>
              k in LoadAiConfig(UpdateAiParameters(data, disk).disk).config &&
              LoadAiConfig(UpdateAiParameters(data, disk).disk).config[k] == LoadAiConfig(disk).config[k]
  {
  }

  /** Repeating an accepted parameters update changes nothing more. */
  lemma ParametersUpdateIdempotent(data: map<string, Value>, disk: Disk)
    requires UpdateAiParameters(data, disk).response.Ok?
    ensures UpdateAiParameters(data, UpdateAiParameters(data, disk).disk) == UpdateAiParameters(data, disk)
  {
  }

  /** Both settings files — the default and the fallback — hold values the parameters route accepts, and so do the bot's own request settings. */
  lemma ShippedSettingsAreValid(prompt: string)
    ensures ValidateParameters(Settings(prompt)["temperature"], Settings(prompt)["max_tokens"]).None?
    ensures ValidateParameters(Num(AiHistory.TEMPERATURE), Num(AiHistory.MAX_TOKENS as real)).None?
  {
  }

  /**
   * With no configuration file, an accepted parameters update stores the
   * default prompt when the directory exists, and the short fallback prompt
   * when it does not: loading cannot create the directory, saving can.
   */
  lemma MissingFileStoredPrompt(data: map<string, Value>, disk: Disk)
    requires disk.file.Absent? && disk.writable
    requires ValidateParameters(Get(data, "temperature"), Get(data, "max_tokens")).None?
    ensures UpdateAiParameters(data, disk).response.Ok?
    ensures UpdateAiParameters(data, disk).disk.file.config["prompt"] ==
              Str(if disk.dirExists then DEFAULT_PROMPT else FALLBACK_PROMPT)
  {
  }

  /** A boolean temperature passes validation: `true` compares as 1 and is stored as `true`. */
  lemma BooleanTemperatureAccepted(disk: Disk)
    requires disk.writable
    ensures UpdateAiParameters(map["temperature" := Bool(true), "max_tokens" := Num(100.0)], disk).response.Ok?
  {
  }
}

=== FILE: ai_history.dfy ===
/**
 * The bot's per-phone conversation memory (whatsapp-bot/ai-integration.js):
 * each incoming text is recorded as a user turn, the memory is cut to its ten
 * most recent turns, the prompt is the fixed system turn followed by that
 * memory, and a successful reply is recorded as an assistant turn. The call
 * to the language-model service is a parameter: its outcome is given.
 */
module AiHistory {
  import JsText

  /** How many turns survive the cut made before each prompt. */
  const MAX_HISTORY: nat := 10

  const MODEL := "llama3-70b-8192"
  const MAX_TOKENS: int := 150
  const TEMPERATURE: real := 0.7

  const SYSTEM_PROMPT := "Você é Dexter, o assistente virtual da Zynapse, uma plataforma de automação de atendimento via WhatsApp. Fale com cordialidade, clareza e profissionalismo. Mantenha as respostas curtas (3 a 4 frases). Use uma linguagem humanizada, pode ser engraçado as vezes, com leve toque informal, e emoji quando apropriado. Você oferece ajuda com: Informações sobre o sistema Zynapse, Ativação do bot para empresas, Zynapse está localizada em Santo Antônio de Jesus, BA. Quando não souber algo, ofereça ajuda para falar com um atendente humano. iNFORMAÇÕES UTEIS: SITE https://zinapseapp.netlify.app, Dev Cleiton Neri; Dê uma olhada no site pra conhecer mais e passar no atendimento "

  /** The text returned to the contact whenever the reply could not be produced. */
  const APOLOGY := "Desculpe, estou com dificuldades para processar sua solicitação no momento. Por favor, tente novamente mais tarde ou entre em contato com nosso suporte."

  datatype Role = System | User | Assistant

  datatype Turn = Turn(role: Role, content: string)

  /** The module-level `conversations` object: phone to stored turns. */
  type Histories = map<string, seq<Turn>>

  /** What the chat-completion call produced: the reply's raw content, or any failure. */
  datatype Upstream = Replied(content: string) | Failed

  /** The body posted to the chat-completion endpoint. */
  datatype ChatRequest = ChatRequest(model: string, messages: seq<Turn>, maxTokens: int, temperature: real)

  /** The memory after one call, the request that was sent, and the text handed back. */
  datatype Exchange = Exchange(histories: Histories, request: ChatRequest, reply: string)

  /** The result of `clearConversationHistory` together with the memory it leaves. */
  datatype Cleared = Cleared(histories: Histories, cleared: bool)

  /** `a` is what remains of `b` after dropping some of its oldest elements. */
  predicate IsSuffix<T(==)>(a: seq<T>, b: seq<T>) {
    |a| <= |b| && a == b[|b| - |a|..]
  }

  /** A phone's stored turns; a phone never seen starts from an empty list. */
  function HistoryOf(h: Histories, phone: string): (r: seq<Turn>)
    ensures phone !in h ==> r == []
  {
    if phone in h then h[phone] else []
  }

  /** `slice(-10)` applied only when there are more than ten turns. */
  function KeepRecent(turns: seq<Turn>): (r: seq<Turn>)
    ensures |r| == if |turns| > MAX_HISTORY then MAX_HISTORY else |turns|
    ensures IsSuffix(r, turns)
  {
    if |turns| > MAX_HISTORY then turns[|turns| - MAX_HISTORY..] else turns
  }

  /** The stored turns once the new user turn is recorded and the list is cut. */
  function Window(h: Histories, phone: string, message: string): (w: seq<Turn>)
    ensures 1 <= |w| <= MAX_HISTORY
  {
    KeepRecent(HistoryOf(h, phone) + [Turn(User, message)])
  }

  /**
   * The cut keeps the ten (or fewer) most recent turns, in order, and the
   * newest of them is the user turn just recorded.
   */
  lemma WindowKeepsMostRecent(h: Histories, phone: string, message: string)
    ensures IsSuffix(Window(h, phone, message), HistoryOf(h, phone) + [Turn(User, message)])
    ensures |Window(h, phone, message)|
         == if |HistoryOf(h, phone)| >= MAX_HISTORY then MAX_HISTORY else |HistoryOf(h, phone)| + 1
    ensures Window(h, phone, message)[|Window(h, phone, message)| - 1] == Turn(User, message)
  {
  }

  /** The prompt: the system turn, then the stored turns unchanged. */
  function BuildPrompt(systemPrompt: string, window: seq<Turn>): (p: seq<Turn>)
    ensures |p| == |window| + 1
    ensures p[0] == Turn(System, systemPrompt)
    ensures p[1..] == window
  {
    [Turn(System, systemPrompt)] + window
  }

  /**
   * `generateAIResponse`. Only the caller's phone has its turns changed. The
   * request carries the system turn and at most ten stored turns. On success
   * the trimmed reply is both stored as an assistant turn and returned; on
   * failure the user turn stays, no assistant turn is added, and the fixed
   * apology is returned. Either way at most eleven turns stay stored. The
   * system text is a parameter; the bot passes `SYSTEM_PROMPT`.
   */
  function GenerateAIResponse(h: Histories, phone: string, message: string, systemPrompt: string, upstream: Upstream): (x: Exchange)
    ensures phone in x.histories && x.histories == h[phone := x.histories[phone]]
    ensures x.request == ChatRequest(MODEL, BuildPrompt(systemPrompt, Window(h, phone, message)), MAX_TOKENS, TEMPERATURE)
    ensures 2 <= |x.request.messages| <= MAX_HISTORY + 1
    ensures upstream.Replied? ==>
      && x.reply == JsText.Trim(upstream.content)
      && x.histories[phone] == Window(h, phone, message) + [Turn(Assistant, x.reply)]
    ensures upstream.Failed? ==>
      x.reply == APOLOGY && x.histories[phone] == Window(h, phone, message)
    ensures |x.histories[phone]| <= MAX_HISTORY + 1
  {
    var window := Window(h, phone, message);
    var request := ChatRequest(MODEL, BuildPrompt(systemPrompt, window), MAX_TOKENS, TEMPERATURE);
    if upstream.Replied? then
      var reply := JsText.Trim(upstream.content);
      Exchange(h[phone := window + [Turn(Assistant, reply)]], request, reply)
    else
      Exchange(h[phone := window], request, APOLOGY)
  }

  /** The bot as deployed, with its fixed system text. */
  function DexterResponse(h: Histories, phone: string, message: string, upstream: Upstream): Exchange {
    GenerateAIResponse(h, phone, message, SYSTEM_PROMPT, upstream)
  }

  /**
   * `clearConversationHistory`. A known phone (even one whose list is already
   * empty, since an empty array is truthy) gets an empty list and the answer
   * true; an unknown phone gets false and nothing changes.
   */
  function ClearConversationHistory(h: Histories, phone: string): (r: Cleared)
    ensures r.cleared <==> phone in h
    ensures phone in h ==> r.histories == h[phone := []]
    ensures phone !in h ==> r.histories == h
  {
    if phone in h then Cleared(h[phone := []], true) else Cleared(h, false)
  }

  /** Clearing twice: the second call still answers true and changes nothing more. */
  lemma ClearTwice(h: Histories, phone: string)
    requires phone in h
    ensures var once := ClearConversationHistory(h, phone);
      ClearConversationHistory(once.histories, phone) == Cleared(once.histories, true)
  {
  }

  // ----- invariants over any sequence of calls ---------------------------------

  /** Every stored list holds at most eleven turns. */
  predicate Bounded(h: Histories) {
    forall p :: p in h ==> |h[p]| <= MAX_HISTORY + 1
  }

  /** Both operations keep every stored list within eleven turns. */
  lemma BoundedIsInvariant(h: Histories, phone: string, message: string, systemPrompt: string, upstream: Upstream)
    requires Bounded(h)
    ensures Bounded(GenerateAIResponse(h, phone, message, systemPrompt, upstream).histories)
    ensures Bounded(ClearConversationHistory(h, phone).histories)
  {
  }

  /**
   * The full transcript of a phone: every user turn and every stored reply,
   * in order, never cut. Clearing the memory does not touch it.
   */
  function Transcribe(log: Histories, phone: string, message: string, upstream: Upstream): Histories {
    log[phone := HistoryOf(log, phone) + [Turn(User, message)] + ReplyTurns(upstream)]
  }

  /** Each stored list consists of the most recent turns of that phone's transcript. */
  predicate Retains(h: Histories, log: Histories) {
    forall p :: p in h ==> IsSuffix(h[p], HistoryOf(log, p))
  }

  lemma SuffixExtend<T>(a: seq<T>, b: seq<T>, tail: seq<T>)
    requires IsSuffix(a, b)
    ensures IsSuffix(a + tail, b + tail)
  {
    assert (b + tail)[|b + tail| - |a + tail|..] == b[|b| - |a|..] + tail;
  }

  lemma SuffixTrans<T>(a: seq<T>, b: seq<T>, c: seq<T>)
    requires IsSuffix(a, b) && IsSuffix(b, c)
    ensures IsSuffix(a, c)
  {
    assert c[|c| - |b|..][|b| - |a|..] == c[|c| - |a|..];
  }

  /** Cutting and then appending keeps a suffix of the uncut list with the same appendix. */
  lemma CutThenAppend(stored: seq<Turn>, full: seq<Turn>, user: seq<Turn>, tail: seq<Turn>)
    requires IsSuffix(stored, full)
    ensures IsSuffix(KeepRecent(stored + user) + tail, full + user + tail)
  {
    SuffixExtend(stored, full, user);
    SuffixTrans(KeepRecent(stored + user), stored + user, full + user);
    SuffixExtend(KeepRecent(stored + user), full + user, tail);
  }

  /** The turns a call adds to the transcript after the user turn. */
  function ReplyTurns(upstream: Upstream): seq<Turn> {
    if upstream.Replied? then [Turn(Assistant, JsText.Trim(upstream.content))] else []
  }

  /** The caller's stored list after a call: the window, then the turns the reply adds. */
  lemma StoredAfterCall(h: Histories, phone: string, message: string, systemPrompt: string, upstream: Upstream)
    ensures GenerateAIResponse(h, phone, message, systemPrompt, upstream).histories[phone] == Window(h, phone, message) + ReplyTurns(upstream)
  {
  }

  /** The caller's phone: its new stored list is a suffix of its extended transcript. */
  lemma StoredIsRecentTurns(h: Histories, log: Histories, phone: string, message: string, systemPrompt: string, upstream: Upstream)
    requires phone in h ==> IsSuffix(h[phone], HistoryOf(log, phone))
    ensures IsSuffix(GenerateAIResponse(h, phone, message, systemPrompt, upstream).histories[phone],
                     HistoryOf(Transcribe(log, phone, message, upstream), phone))
  {
    var user := [Turn(User, message)];
    var tail := ReplyTurns(upstream);
    var full := HistoryOf(log, phone);
    assert IsSuffix(HistoryOf(h, phone), full);
    CutThenAppend(HistoryOf(h, phone), full, user, tail);
    StoredAfterCall(h, phone, message, systemPrompt, upstream);
    assert HistoryOf(Transcribe(log, phone, message, upstream), phone) == full + user + tail;
  }

  /**
   * Whatever the outcomes, the memory kept for a phone is always the most
   * recent stretch of everything said with that phone, in order.
   */
  lemma GenerateRetainsRecentTurns(h: Histories, log: Histories, phone: string, message: string, systemPrompt: string, upstream: Upstream)
    requires Retains(h, log)
    ensures Retains(GenerateAIResponse(h, phone, message, systemPrompt, upstream).histories, Transcribe(log, phone, message, upstream))
  {
    var x := GenerateAIResponse(h, phone, message, systemPrompt, upstream);
    var log' := Transcribe(log, phone, message, upstream);
    forall p | p in x.histories ensures IsSuffix(x.histories[p], HistoryOf(log', p)) {
      if p == phone {
        StoredIsRecentTurns(h, log, phone, message, systemPrompt, upstream);
      } else {
        assert x.histories[p] == h[p] && HistoryOf(log', p) == HistoryOf(log, p);
      }
    }
  }

  lemma ClearRetainsRecentTurns(h: Histories, log: Histories, phone: string)
    requires Retains(h, log)
    ensures Retains(ClearConversationHistory(h, phone).histories, log)
  {
  }
}

=== FILE: conversations.dfy ===
/**
 * The dashboard's per-phone conversation index (`processConversations` in
 * frontend/assets/js/whatsapp-dashboard.js): messages are grouped by phone in
 * arrival order, each conversation remembers the body and timestamp of its
 * latest message and an unread counter, and the conversations are listed by
 * last activity, newest first.
 */
module Conversations {
  import opened Options

  const INCOMING := "incoming"
  const OUTGOING := "outgoing"
  const READ := "read"

  /** One message row; `createdAt` is the `created_at` instant as an integer timestamp. */
  datatype Message = Message(
    id: int,
    phone: string,
    message: string,
    direction: string,
    status: string,
    createdAt: int)

  /** The object the dashboard builds per phone; `None` stands for the initial `null`. */
  datatype Conversation = Conversation(
    phone: string,
    messages: seq<Message>,
    lastMessage: Option<string>,
    lastActivity: Option<int>,
    unread: nat)

  /** A received message whose status is not `read`. */
  predicate IsPending(m: Message) {
    m.direction == INCOMING && m.status != READ
  }

  function Fresh(phone: string): Conversation {
    Conversation(phone, [], None, None, 0)
  }

  /**
   * One iteration of the grouping loop for a conversation that already exists:
   * the message is appended, and only a strictly later timestamp (or the first
   * message) replaces the summary and may bump the unread counter.
   */
  function Absorb(c: Conversation, m: Message): Conversation {
    var c' := c.(messages := c.messages + [m]);
    if c'.lastActivity.None? || m.createdAt > c'.lastActivity.value then
      c'.(lastMessage := Some(m.message),
          lastActivity := Some(m.createdAt),
          unread := if IsPending(m) then c'.unread + 1 else c'.unread)
    else
      c'
  }

  /** The conversation the loop builds from one phone's messages, fed in arrival order. */
  function Thread(phone: string, ms: seq<Message>): Conversation
    decreases |ms|
  {
    if ms == [] then Fresh(phone)
    else Absorb(Thread(phone, ms[..|ms| - 1]), ms[|ms| - 1])
  }

  /** The messages of one phone, in arrival order. */
  function OfPhone(msgs: seq<Message>, p: string): (r: seq<Message>)
    ensures |r| <= |msgs|
    ensures forall m :: m in r <==> m in msgs && m.phone == p
    decreases |msgs|
  {
    if msgs == [] then []
    else
      var rest := OfPhone(msgs[..|msgs| - 1], p);
      var m := msgs[|msgs| - 1];
      assert msgs == msgs[..|msgs| - 1] + [m];
      if m.phone == p then rest + [m] else rest
  }

  /** A phone has no messages exactly when it does not occur. */
  lemma OfPhoneEmpty(msgs: seq<Message>, p: string)
    ensures OfPhone(msgs, p) == [] <==> p !in Phones(msgs)
  {
    var o := OfPhone(msgs, p);
    if o != [] {
      assert o[0] in msgs;
      var i :| 0 <= i < |msgs| && msgs[i] == o[0];
      assert msgs[i].phone == p;
    }
  }

  /** The distinct phones of a message list. */
  function Phones(msgs: seq<Message>): set<string> {
    set i | 0 <= i < |msgs| :: msgs[i].phone
  }

  /** The `conversations` object the loop leaves behind, keyed by phone. */
  function Group(msgs: seq<Message>): (r: map<string, Conversation>)
    ensures r.Keys == Phones(msgs)
    ensures forall p :: p in r ==> r[p].phone == p
    decreases |msgs|
  {
    if msgs == [] then map[]
    else
      var g := Group(msgs[..|msgs| - 1]);
      var m := msgs[|msgs| - 1];
      PhonesOfSnoc(msgs[..|msgs| - 1], m);
      assert msgs == msgs[..|msgs| - 1] + [m];
      g[m.phone := Absorb(if m.phone in g then g[m.phone] else Fresh(m.phone), m)]
  }

  /** Where a phone's first message sits in the list; `|msgs|` when it has none. */
  function FirstIndex(msgs: seq<Message>, p: string): (k: nat)
    ensures k <= |msgs|
    ensures k < |msgs| ==> msgs[k].phone == p
    ensures forall l :: 0 <= l < k ==> msgs[l].phone != p
    ensures k < |msgs| <==> p in Phones(msgs)
    decreases |msgs|
  {
    if msgs == [] then 0
    else
      var k := FirstIndex(msgs[..|msgs| - 1], p);
      if k < |msgs| - 1 then k
      else if msgs[|msgs| - 1].phone == p then |msgs| - 1
      else |msgs|
  }

  /** `FirstIndex` after one more message `m`. */
  function FirstIndexAfter(prefix: seq<Message>, m: Message, q: string): nat {
    if q in Phones(prefix) then FirstIndex(prefix, q) else if m.phone == q then |prefix| else |prefix| + 1
  }

  lemma FirstIndexSnoc(prefix: seq<Message>, m: Message, q: string)
    ensures FirstIndex(prefix + [m], q) == FirstIndexAfter(prefix, m, q)
  {
    assert (prefix + [m])[..|prefix|] == prefix;
  }

  /** The phones in the order their first message arrived: the key order of `conversations`. */
  function FirstSeen(msgs: seq<Message>): (r: seq<string>)
    ensures forall i, j :: 0 <= i < j < |r| ==> r[i] != r[j]
    ensures forall p :: p in r <==> p in Phones(msgs)
    ensures forall i, j :: 0 <= i < j < |r| ==> FirstIndex(msgs, r[i]) < FirstIndex(msgs, r[j])
    decreases |msgs|
  {
    if msgs == [] then []
    else
      var prefix := msgs[..|msgs| - 1];
      var rest := FirstSeen(prefix);
      var p := msgs[|msgs| - 1].phone;
      PhonesOfSnoc(prefix, msgs[|msgs| - 1]);
      assert msgs == prefix + [msgs[|msgs| - 1]];
      forall q ensures FirstIndex(msgs, q) == FirstIndexAfter(prefix, msgs[|msgs| - 1], q) {
        FirstIndexSnoc(prefix, msgs[|msgs| - 1], q);
      }
      if p in rest then rest else rest + [p]
  }

  /** One more message changes only its phone's entry, exactly as one pass of the loop does. */
  lemma GroupSnoc(msgs: seq<Message>, m: Message)
    ensures var g := Group(msgs);
      Group(msgs + [m]) == g[m.phone := Absorb(if m.phone in g then g[m.phone] else Fresh(m.phone), m)]
  {
    assert (msgs + [m])[..|msgs|] == msgs;
  }

  lemma PhonesOfSnoc(msgs: seq<Message>, m: Message)
    ensures Phones(msgs + [m]) == Phones(msgs) + {m.phone}
  {
    var s := msgs + [m];
    forall p | p in Phones(s) ensures p in Phones(msgs) + {m.phone} {
      var i :| 0 <= i < |s| && s[i].phone == p;
      if i < |msgs| { assert msgs[i] == s[i]; }
    }
    forall p | p in Phones(msgs) + {m.phone} ensures p in Phones(s) {
      if p == m.phone { assert s[|msgs|].phone == p; }
      else { var i :| 0 <= i < |msgs| && msgs[i].phone == p; assert s[i] == msgs[i]; }
    }
  }

  // ----- grouping -----------------------------------------------------------

  /**
   * The grouping is a per-phone fold: there is one entry per distinct phone,
   * and each entry is exactly what the loop builds from that phone's messages
   * alone, in arrival order.
   */
  lemma {:induction false} GroupIsPerPhoneThread(msgs: seq<Message>)
    ensures forall p :: p in Group(msgs) ==> Group(msgs)[p] == Thread(p, OfPhone(msgs, p))
    decreases |msgs|
  {
    if msgs != [] {
      var prefix := msgs[..|msgs| - 1];
      var m := msgs[|msgs| - 1];
      assert msgs == prefix + [m];
      GroupIsPerPhoneThread(prefix);
      GroupSnoc(prefix, m);
      var g := Group(prefix);
      forall p | p in Group(msgs)
        ensures Group(msgs)[p] == Thread(p, OfPhone(msgs, p))
      {
        if p == m.phone {
          var o := OfPhone(prefix, p);
          assert OfPhone(msgs, p) == o + [m];
          assert (o + [m])[..|o|] == o;
          if p !in g {
            OfPhoneEmpty(prefix, p);
          }
        }
      }
    }
  }

  // ----- the summary of one conversation --------------------------------------

  /** `t` is the largest timestamp among `ms`. */
  ghost predicate IsLatest(ms: seq<Message>, t: int) {
    (exists i :: 0 <= i < |ms| && ms[i].createdAt == t)
    && forall i :: 0 <= i < |ms| ==> ms[i].createdAt <= t
  }

  /** Index `i` holds the largest timestamp of `ms`, and no earlier message reaches it. */
  ghost predicate IsFirstLatest(ms: seq<Message>, i: int) {
    && 0 <= i < |ms|
    && (forall j :: 0 <= j < |ms| ==> ms[j].createdAt <= ms[i].createdAt)
    && (forall j :: 0 <= j < i ==> ms[j].createdAt < ms[i].createdAt)
  }

  /** Message `i` was strictly later than every message of `ms` that arrived before it. */
  ghost predicate IsNewLatest(ms: seq<Message>, i: int)
    requires 0 <= i < |ms|
  {
    forall j :: 0 <= j < i ==> ms[j].createdAt < ms[i].createdAt
  }

  /** The number of pending messages of `ms` that were a strict new maximum when they arrived. */
  ghost function PendingNewLatest(ms: seq<Message>): nat
    decreases |ms|
  {
    if ms == [] then 0
    else PendingNewLatest(ms[..|ms| - 1])
         + (if IsPending(ms[|ms| - 1]) && IsNewLatest(ms, |ms| - 1) then 1 else 0)
  }

  /** The number of pending messages of `ms`. */
  function CountPending(ms: seq<Message>): nat
    decreases |ms|
  {
    if ms == [] then 0
    else CountPending(ms[..|ms| - 1]) + (if IsPending(ms[|ms| - 1]) then 1 else 0)
  }

  /** The loop keeps the phone, every message in order, and leaves the summary empty only for no messages. */
  lemma {:induction false} ThreadShape(phone: string, ms: seq<Message>)
    ensures Thread(phone, ms).phone == phone
    ensures Thread(phone, ms).messages == ms
    ensures ms == [] <==> Thread(phone, ms).lastActivity.None?
    ensures ms == [] ==> Thread(phone, ms).lastMessage.None? && Thread(phone, ms).unread == 0
    decreases |ms|
  {
    if ms != [] {
      var prefix := ms[..|ms| - 1];
      assert ms == prefix + [ms[|ms| - 1]];
      ThreadShape(phone, prefix);
    }
  }

  /**
   * The last activity is the maximum timestamp, and the last message is the
   * body of the EARLIEST message reaching it (the comparison is a strict `>`).
   */
  lemma {:induction false} ThreadLatest(phone: string, ms: seq<Message>)
    requires ms != []
    ensures Thread(phone, ms).lastActivity.Some?
    ensures IsLatest(ms, Thread(phone, ms).lastActivity.value)
    ensures exists i :: IsFirstLatest(ms, i) && Thread(phone, ms).lastMessage == Some(ms[i].message)
    decreases |ms|
  {
    var prefix := ms[..|ms| - 1];
    var m := ms[|ms| - 1];
    assert ms == prefix + [m];
    if prefix == [] {
      ThreadShape(phone, prefix);
      assert IsFirstLatest(ms, 0);
    } else {
      ThreadLatest(phone, prefix);
      var c := Thread(phone, prefix);
      var i :| IsFirstLatest(prefix, i) && c.lastMessage == Some(prefix[i].message);
      LatestStep(prefix, m, c.lastActivity.value, i);
      if m.createdAt <= c.lastActivity.value {
        assert ms[i] == prefix[i];
      }
    }
  }

  /** How one more message moves the maximum and the first index reaching it. */
  lemma LatestStep(prefix: seq<Message>, m: Message, t: int, i: int)
    requires IsLatest(prefix, t) && IsFirstLatest(prefix, i)
    ensures m.createdAt > t ==> IsLatest(prefix + [m], m.createdAt) && IsFirstLatest(prefix + [m], |prefix|)
    ensures m.createdAt <= t ==> IsLatest(prefix + [m], t) && IsFirstLatest(prefix + [m], i)
  {
    var ms := prefix + [m];
    assert prefix[i].createdAt == t by {
      var k :| 0 <= k < |prefix| && prefix[k].createdAt == t;
    }
    forall j | 0 <= j < |prefix| ensures ms[j] == prefix[j] { }
    if m.createdAt > t {
      assert ms[|prefix|] == m;
    } else {
      assert ms[i] == prefix[i];
    }
  }

  /** The unread counter counts only pending messages that were a strict new maximum when they arrived. */
  lemma {:induction false} ThreadUnread(phone: string, ms: seq<Message>)
    ensures Thread(phone, ms).unread == PendingNewLatest(ms)
    decreases |ms|
  {
    if ms != [] {
      var prefix := ms[..|ms| - 1];
      var m := ms[|ms| - 1];
      var c := Thread(phone, prefix);
      ThreadUnread(phone, prefix);
      var jumps := c.lastActivity.None? || m.createdAt > c.lastActivity.value;
      assert Thread(phone, ms).unread == c.unread + (if jumps && IsPending(m) then 1 else 0);
      assert IsNewLatest(ms, |ms| - 1) == jumps by {
        assert ms == prefix + [m];
        ThreadShape(phone, prefix);
        if prefix != [] {
          ThreadLatest(phone, prefix);
          var t := c.lastActivity.value;
          if m.createdAt <= t {
            var k :| 0 <= k < |prefix| && prefix[k].createdAt == t;
            assert ms[k] == prefix[k];
          }
        }
      }
    }
  }

  /** The unread counter never exceeds the number of pending messages. */
  lemma {:induction false} PendingNewLatestAtMostPending(ms: seq<Message>)
    ensures PendingNewLatest(ms) <= CountPending(ms)
    decreases |ms|
  {
    if ms != [] {
      PendingNewLatestAtMostPending(ms[..|ms| - 1]);
    }
  }

  /**
   * Everything the index records for a phone, stated against that phone's
   * messages: the entry exists exactly for phones that occur, holds their
   * messages in arrival order, the latest timestamp, the first body carrying
   * it, and an unread count of pending new maxima that is at most the number
   * of pending messages.
   */
  lemma IndexedConversation(msgs: seq<Message>, p: string)
    ensures p in Group(msgs) <==> exists i :: 0 <= i < |msgs| && msgs[i].phone == p
    ensures p in Group(msgs) ==>
      var c := Group(msgs)[p];
      var ms := OfPhone(msgs, p);
      && ms != []
      && c.phone == p
      && c.messages == ms
      && c.lastActivity.Some?
      && IsLatest(ms, c.lastActivity.value)
      && (exists i :: IsFirstLatest(ms, i) && c.lastMessage == Some(ms[i].message))
      && c.unread == PendingNewLatest(ms)
      && c.unread <= CountPending(ms)
  {
    GroupIsPerPhoneThread(msgs);
    var ms := OfPhone(msgs, p);
    ThreadShape(p, ms);
    ThreadUnread(p, ms);
    PendingNewLatestAtMostPending(ms);
    if p in Group(msgs) {
      var i :| 0 <= i < |msgs| && msgs[i].phone == p;
      assert msgs[i] in ms;
      ThreadLatest(p, ms);
    }
  }

  /** Two messages with the same timestamp: the one that arrived first supplies the summary. */
  lemma TieKeepsEarlierArrival(a: Message, b: Message)
    requires a.phone == b.phone && a.createdAt == b.createdAt
    ensures Group([a, b])[a.phone].lastMessage == Some(a.message)
  {
    assert [a, b][..1] == [a];
  }

  /** A pending message older than one already seen is not counted as unread. */
  lemma OutOfOrderPendingNotCounted(a: Message, b: Message)
    requires a.phone == b.phone && b.createdAt < a.createdAt
    requires !IsPending(a) && IsPending(b)
    ensures Group([a, b])[a.phone].unread == 0
    ensures CountPending([a, b]) == 1
  {
    assert [a, b][..1] == [a];
    assert [a][..0] == [];
    assert CountPending([a]) == 0;
  }

  // ----- the listing ------------------------------------------------------------

  /** The sort key: `new Date(null)` is the epoch, so a missing activity sorts as 0. */
  function Activity(c: Conversation): int {
    if c.lastActivity.Some? then c.lastActivity.value else 0
  }

  predicate NewestFirst(s: seq<Conversation>) {
    forall i, j :: 0 <= i < j < |s| ==> Activity(s[i]) >= Activity(s[j])
  }

  /** Inserts `c` before the first element that is not newer than it (older or equally recent). */
  function Insert(c: Conversation, s: seq<Conversation>): (r: seq<Conversation>)
    requires NewestFirst(s)
    ensures NewestFirst(r)
    ensures multiset(r) == multiset(s) + multiset{c}
    ensures forall x :: x in r ==> x == c || x in s
    decreases |s|
  {
    if s == [] || Activity(c) >= Activity(s[0]) then [c] + s
    else
      var rest := Insert(c, s[1..]);
      InsertStep(c, s, rest);
      [s[0]] + rest
  }

  /** The recursive case of `Insert`: `c` goes after the strictly newer head. */
  lemma InsertStep(c: Conversation, s: seq<Conversation>, rest: seq<Conversation>)
    requires NewestFirst(s) && s != [] && Activity(c) < Activity(s[0])
    requires NewestFirst(rest)
    requires multiset(rest) == multiset(s[1..]) + multiset{c}
    requires forall x :: x in rest ==> x == c || x in s[1..]
    ensures NewestFirst([s[0]] + rest)
    ensures multiset([s[0]] + rest) == multiset(s) + multiset{c}
    ensures forall x :: x in [s[0]] + rest ==> x == c || x in s
  {
    var tail := s[1..];
    assert s == [s[0]] + tail;
    forall x | x in rest ensures Activity(x) <= Activity(s[0]) {
      if x != c {
        var k :| 0 <= k < |tail| && tail[k] == x;
        assert s[k + 1] == x;
      }
    }
    InsertKeepsHeadFirst(s[0], rest);
  }

  lemma InsertKeepsHeadFirst(h: Conversation, rest: seq<Conversation>)
    requires NewestFirst(rest)
    requires forall x :: x in rest ==> Activity(x) <= Activity(h)
    ensures NewestFirst([h] + rest)
  {
    var r := [h] + rest;
    forall i, j | 0 <= i < j < |r| ensures Activity(r[i]) >= Activity(r[j]) {
      if i == 0 { assert r[j] == rest[j - 1]; assert r[j] in rest; }
      else { assert r[i] == rest[i - 1] && r[j] == rest[j - 1]; }
    }
  }

  /**
   * A stable sort by descending activity, as the source's comparator
   * `b.lastActivity - a.lastActivity` with a stable `Array.prototype.sort`.
   */
  function SortNewestFirst(s: seq<Conversation>): (r: seq<Conversation>)
    ensures NewestFirst(r)
    ensures multiset(r) == multiset(s)
    decreases |s|
  {
    if s == [] then []
    else
      assert s == [s[0]] + s[1..];
      Insert(s[0], SortNewestFirst(s[1..]))
  }

  /** Among elements of equal activity, `rank` strictly increases along `s`. */
  ghost predicate TiesInRankOrder(s: seq<Conversation>, rank: Conversation -> int) {
    forall i, j :: 0 <= i < j < |s| && Activity(s[i]) == Activity(s[j]) ==> rank(s[i]) < rank(s[j])
  }

  /** Putting `h` in front keeps ties in rank order when `h` ranks below every element tied with it. */
  lemma TiesInRankOrderCons(h: Conversation, rest: seq<Conversation>, rank: Conversation -> int)
    requires TiesInRankOrder(rest, rank)
    requires forall x :: x in rest && Activity(x) == Activity(h) ==> rank(h) < rank(x)
    ensures TiesInRankOrder([h] + rest, rank)
  {
    var r := [h] + rest;
    forall i, j | 0 <= i < j < |r| && Activity(r[i]) == Activity(r[j]) ensures rank(r[i]) < rank(r[j]) {
      assert r[j] == rest[j - 1];
      if i > 0 { assert r[i] == rest[i - 1]; }
    }
  }

  /** Dropping the head keeps both orders, and every element of the tail. */
  lemma TiesInRankOrderTail(s: seq<Conversation>, rank: Conversation -> int)
    requires s != [] && NewestFirst(s) && TiesInRankOrder(s, rank)
    ensures NewestFirst(s[1..]) && TiesInRankOrder(s[1..], rank)
    ensures forall x :: x in s[1..] ==> x in s
  {
    var tail := s[1..];
    forall i, j | 0 <= i < j < |tail| ensures tail[i] == s[i + 1] && tail[j] == s[j + 1] { }
  }

  /** Inserting an element ranked below all others keeps equal activities in rank order. */
  lemma {:induction false} InsertIsStable(c: Conversation, s: seq<Conversation>, rank: Conversation -> int)
    requires NewestFirst(s) && TiesInRankOrder(s, rank)
    requires forall x :: x in s ==> rank(c) < rank(x)
    ensures TiesInRankOrder(Insert(c, s), rank)
    decreases |s|
  {
    if s == [] || Activity(c) >= Activity(s[0]) {
      TiesInRankOrderCons(c, s, rank);
    } else {
      var tail := s[1..];
      TiesInRankOrderTail(s, rank);
      InsertIsStable(c, tail, rank);
      var rest := Insert(c, tail);
      assert forall x :: x in rest && Activity(x) == Activity(s[0]) ==> rank(s[0]) < rank(x) by {
        forall x | x in rest && Activity(x) == Activity(s[0]) ensures rank(s[0]) < rank(x) {
          var k :| 0 <= k < |tail| && tail[k] == x;
          assert s[k + 1] == x;
        }
      }
      TiesInRankOrderCons(s[0], rest, rank);
    }
  }

  /**
   * Stability: when `rank` strictly increases along the input, conversations
   * of equal activity leave the sort in input order.
   */
  lemma {:induction false} SortIsStable(s: seq<Conversation>, rank: Conversation -> int)
    requires forall i, j :: 0 <= i < j < |s| ==> rank(s[i]) < rank(s[j])
    ensures TiesInRankOrder(SortNewestFirst(s), rank)
    decreases |s|
  {
    if s != [] {
      var sorted := SortNewestFirst(s[1..]);
      SortIsStable(s[1..], rank);
      forall x | x in sorted ensures rank(s[0]) < rank(x) {
        assert x in multiset(s[1..]);
        var k :| 0 <= k < |s[1..]| && s[1..][k] == x;
        assert s[k + 1] == x;
      }
      InsertIsStable(s[0], sorted, rank);
    }
  }

  /** `Object.values` of the grouping, in key insertion order. */
  function Values(g: map<string, Conversation>, keys: seq<string>): (r: seq<Conversation>)
    requires forall k :: k in keys ==> k in g
    ensures |r| == |keys|
    ensures forall i :: 0 <= i < |keys| ==> r[i] == g[keys[i]]
    decreases |keys|
  {
    if keys == [] then [] else [g[keys[0]]] + Values(g, keys[1..])
  }

  /** The `conversationList` built at the end of `processConversations`. */
  function ConversationList(msgs: seq<Message>): seq<Conversation> {
    var g := Group(msgs);
    SortNewestFirst(Values(g, FirstSeen(msgs)))
  }

  lemma {:induction false} DistinctCard(s: seq<string>)
    requires forall i, j :: 0 <= i < j < |s| ==> s[i] != s[j]
    ensures |set x | x in s| == |s|
    decreases |s|
  {
    if s != [] {
      var prefix := s[..|s| - 1];
      DistinctCard(prefix);
      assert s == prefix + [s[|s| - 1]];
      assert (set x | x in s) == (set x | x in prefix) + {s[|s| - 1]};
      assert s[|s| - 1] !in prefix;
    }
  }

  /**
   * When every entry is keyed by its own phone, the values read off a key
   * list are entries of the index, and every listed key's entry is among them.
   */
  lemma ValuesAreTheConversations(g: map<string, Conversation>, keys: seq<string>)
    requires forall k :: k in keys ==> k in g
    requires forall k :: k in g ==> g[k].phone == k
    ensures forall c :: c in Values(g, keys) ==> c.phone in g && g[c.phone] == c
    ensures forall k :: k in keys ==> g[k] in Values(g, keys)
  {
    var vals := Values(g, keys);
    forall k | k in keys ensures g[k] in vals {
      var i :| 0 <= i < |keys| && keys[i] == k;
      assert vals[i] == g[k];
    }
  }

  /**
   * The listing holds every conversation exactly once, one per distinct phone,
   * newest activity first.
   */
  lemma ConversationListIsSortedPermutation(msgs: seq<Message>)
    ensures NewestFirst(ConversationList(msgs))
    ensures |ConversationList(msgs)| == |Group(msgs)| == |Phones(msgs)|
    ensures multiset(ConversationList(msgs)) == multiset(Values(Group(msgs), FirstSeen(msgs)))
    ensures forall c :: c in ConversationList(msgs) ==> c.phone in Group(msgs) && Group(msgs)[c.phone] == c
    ensures forall p :: p in Group(msgs) ==> Group(msgs)[p] in ConversationList(msgs)
  {
    var g := Group(msgs);
    var keys := FirstSeen(msgs);
    var vals := Values(g, keys);
    var list := ConversationList(msgs);
    assert list == SortNewestFirst(vals);
    DistinctCard(keys);
    assert (set x | x in keys) == Phones(msgs);
    assert |list| == |vals| by {
      assert |multiset(list)| == |multiset(vals)|;
    }
    ValuesAreTheConversations(g, keys);
    forall c | c in list ensures c in vals {
      assert c in multiset(list);
    }
    forall p | p in g ensures g[p] in list {
      assert g[p] in multiset(vals);
    }
  }

  /**
   * Conversations of equal activity are listed in the order their phones
   * first appeared: the key order of `Object.values`, kept by a stable sort.
   */
  lemma ConversationListIsStable(msgs: seq<Message>)
    ensures forall i, j ::
              (0 <= i < j < |ConversationList(msgs)| &&
               Activity(ConversationList(msgs)[i]) == Activity(ConversationList(msgs)[j])) ==>
              FirstIndex(msgs, ConversationList(msgs)[i].phone) < FirstIndex(msgs, ConversationList(msgs)[j].phone)
  {
    var g := Group(msgs);
    var keys := FirstSeen(msgs);
    var vals := Values(g, keys);
    var rank := (c: Conversation) => FirstIndex(msgs, c.phone);
    forall i, j | 0 <= i < j < |vals| ensures rank(vals[i]) < rank(vals[j]) {
      assert vals[i].phone == keys[i] && vals[j].phone == keys[j];
    }
    SortIsStable(vals, rank);
  }

  /** The conversation whose activity is strictly the latest is listed first. */
  lemma LatestListedFirst(msgs: seq<Message>, p: string)
    requires p in Group(msgs)
    requires forall q :: q in Group(msgs) && q != p ==> Activity(Group(msgs)[q]) < Activity(Group(msgs)[p])
    ensures |ConversationList(msgs)| > 0 && ConversationList(msgs)[0] == Group(msgs)[p]
  {
    var g := Group(msgs);
    var list := ConversationList(msgs);
    ConversationListIsSortedPermutation(msgs);
    assert g[p] in list;
    var k :| 0 <= k < |list| && list[k] == g[p];
    assert list[0] in list;
    assert k == 0 || Activity(list[0]) >= Activity(list[k]);
  }
}

=== FILE: dashboard.dfy ===
/**
 * The dashboard component's state and the operations of
 * frontend/assets/js/whatsapp-dashboard.js that change it. Every rebuild
 * recomputes the conversation index and the figures from the message list
 * alone; the clock and the `Date.now()` id are parameters.
 */
module DashboardState {
  import opened Options
  import opened Conversations
  import opened DashboardStats

  const SENT := "sent"

  datatype Dashboard = Dashboard(
    messages: seq<Message>,
    conversations: map<string, Conversation>,
    conversationList: seq<Conversation>,
    stats: Stats,
    phone: string,                       // the compose form's phone field
    message: string,                     // the compose form's text field
    currentConversation: Option<string>, // phone of the open conversation, `None` for null/undefined
    showConversationView: bool)

  /** The figures agree with the message list and the index they were computed from. */
  predicate StatsCurrent(d: Dashboard) {
    d.stats == CalculateStats(d.messages, d.conversations)
  }

  /** `processConversations`: the index and the listing are rebuilt from the message list alone. */
  function ProcessConversations(d: Dashboard): (r: Dashboard)
    ensures r.conversations == Group(d.messages)
    ensures r.conversationList == ConversationList(d.messages)
    ensures r.messages == d.messages && r.stats == d.stats
    ensures r.phone == d.phone && r.message == d.message
    ensures r.currentConversation == d.currentConversation
    ensures r.showConversationView == d.showConversationView
    ensures r.conversations.Keys == Phones(d.messages)
    ensures forall p :: p in r.conversations ==> r.conversations[p].messages == OfPhone(d.messages, p)
    ensures NewestFirst(r.conversationList)
    ensures |r.conversationList| == |r.conversations|
  {
    ConversationListIsSortedPermutation(d.messages);
    GroupIsPerPhoneThread(d.messages);
    forall p | p in Group(d.messages) ensures Group(d.messages)[p].messages == OfPhone(d.messages, p) {
      ThreadShape(p, OfPhone(d.messages, p));
    }
    d.(conversations := Group(d.messages), conversationList := ConversationList(d.messages))
  }

  /** `calculateStats`. */
  function RecalculateStats(d: Dashboard): (r: Dashboard)
    ensures r.stats.totalMessages == |d.messages|
    ensures r.stats.incomingMessages == CountDirection(d.messages, INCOMING)
    ensures r.stats.outgoingMessages == CountDirection(d.messages, OUTGOING)
    ensures r.stats.activeConversations == |d.conversations|
    ensures r.stats.responseRate == ResponseRate(r.stats.outgoingMessages, r.stats.incomingMessages)
    ensures r.stats.averageResponseTime == AVERAGE_RESPONSE_TIME
    ensures r.messages == d.messages && r.conversations == d.conversations
    ensures r.conversationList == d.conversationList
    ensures r.phone == d.phone && r.message == d.message
    ensures r.currentConversation == d.currentConversation
    ensures r.showConversationView == d.showConversationView
  {
    d.(stats := CalculateStats(d.messages, d.conversations))
  }

  /** The rebuild that follows every change of the message list. */
  function Refresh(d: Dashboard): Dashboard {
    RecalculateStats(ProcessConversations(d))
  }

  /** The completion of `loadMessages`: the fetched list replaces the old one and everything is rebuilt. */
  function LoadMessages(d: Dashboard, fetched: seq<Message>): (r: Dashboard)
    ensures r.messages == fetched
    ensures r.conversations == Group(fetched)
    ensures r.conversationList == ConversationList(fetched)
    ensures StatsCurrent(r)
    ensures r.stats.activeConversations == |Phones(fetched)|
    ensures r.phone == d.phone && r.message == d.message
    ensures r.currentConversation == d.currentConversation
    ensures r.showConversationView == d.showConversationView
  {
    Refresh(d.(messages := fetched))
  }

  /** Rebuilding forgets whatever index was there before, so rebuilding twice changes nothing. */
  lemma RebuildIsIdempotent(d: Dashboard, e: Dashboard)
    requires d.messages == e.messages
    ensures ProcessConversations(d).conversations == ProcessConversations(e).conversations
    ensures ProcessConversations(d).conversationList == ProcessConversations(e).conversationList
    ensures Refresh(Refresh(d)) == Refresh(d)
  {
  }

  /** Every listed conversation whose phone is `p` gets a zero unread counter. */
  function ZeroUnread(list: seq<Conversation>, p: string): (r: seq<Conversation>)
    ensures |r| == |list|
    ensures forall i :: 0 <= i < |list| ==>
      r[i] == if list[i].phone == p then list[i].(unread := 0) else list[i]
    decreases |list|
  {
    if list == [] then []
    else [if list[0].phone == p then list[0].(unread := 0) else list[0]] + ZeroUnread(list[1..], p)
  }

  /**
   * `openConversation`: the conversation of `p`, when there is one, gets a
   * zero unread counter (in the index and, since it is the same object, in
   * the listing); nothing else about the conversations, messages or figures
   * changes, and an unknown phone leaves them all as they were.
   */
  function OpenConversation(d: Dashboard, p: string): (r: Dashboard)
    ensures r.messages == d.messages && r.stats == d.stats
    ensures r.phone == p && r.showConversationView
    ensures r.message == d.message
    ensures r.conversations.Keys == d.conversations.Keys
    ensures forall q :: q in d.conversations && q != p ==> r.conversations[q] == d.conversations[q]
    ensures p in d.conversations ==>
      r.conversations[p] == d.conversations[p].(unread := 0) && r.currentConversation == Some(p)
    ensures p !in d.conversations ==>
      r.conversations == d.conversations && r.conversationList == d.conversationList
      && r.currentConversation.None?
    ensures |r.conversationList| == |d.conversationList|
    ensures forall i :: 0 <= i < |d.conversationList| ==>
      && r.conversationList[i].phone == d.conversationList[i].phone
      && Activity(r.conversationList[i]) == Activity(d.conversationList[i])
      && (r.conversationList[i].phone != p ==> r.conversationList[i] == d.conversationList[i])
    ensures p in d.conversations ==> forall i :: 0 <= i < |d.conversationList| && d.conversationList[i].phone == p ==>
      r.conversationList[i] == d.conversationList[i].(unread := 0)
  {
    if p in d.conversations then
      d.(conversations := d.conversations[p := d.conversations[p].(unread := 0)],
         conversationList := ZeroUnread(d.conversationList, p),
         currentConversation := Some(p),
         showConversationView := true,
         phone := p)
    else
      d.(currentConversation := None, showConversationView := true, phone := p)
  }

  /** Opening a conversation keeps the listing newest first and leaves the figures current. */
  lemma OpenConversationKeepsOrder(d: Dashboard, p: string)
    requires NewestFirst(d.conversationList)
    ensures NewestFirst(OpenConversation(d, p).conversationList)
    ensures StatsCurrent(d) ==> StatsCurrent(OpenConversation(d, p))
  {
    var r := OpenConversation(d, p);
    assert |r.conversations| == |d.conversations| by {
      assert r.conversations.Keys == d.conversations.Keys;
    }
  }

  /** The message `sendMessage` adds: outgoing, status `sent`, from the compose form. */
  function Outgoing(d: Dashboard, id: int, now: int): Message {
    Message(id, d.phone, d.message, OUTGOING, SENT, now)
  }

  /**
   * `sendMessage`: with an empty phone or text nothing changes; otherwise one
   * outgoing message is appended at the end, everything is rebuilt and the
   * text field is cleared.
   */
  function SendMessage(d: Dashboard, id: int, now: int): (r: Dashboard)
    ensures d.phone == "" || d.message == "" ==> r == d
    ensures d.phone != "" && d.message != "" ==>
      && r.messages == d.messages + [Outgoing(d, id, now)]
      && r.messages[|d.messages|].direction == OUTGOING
      && r.messages[|d.messages|].status == SENT
      && r.message == "" && r.phone == d.phone
      && r.currentConversation == d.currentConversation
      && r.showConversationView == d.showConversationView
      && StatsCurrent(r)
      && r.conversations == Group(r.messages)
      && r.conversationList == ConversationList(r.messages)
  {
    if d.phone == "" || d.message == "" then d
    else Refresh(d.(messages := d.messages + [Outgoing(d, id, now)])).(message := "")
  }

  /**
   * A message that goes out raises the total and the outgoing count by one
   * each and leaves the incoming count alone.
   */
  lemma SendMessageCounts(d: Dashboard, id: int, now: int)
    requires StatsCurrent(d)
    requires d.phone != "" && d.message != ""
    ensures SendMessage(d, id, now).stats.totalMessages == d.stats.totalMessages + 1
    ensures SendMessage(d, id, now).stats.outgoingMessages == d.stats.outgoingMessages + 1
    ensures SendMessage(d, id, now).stats.incomingMessages == d.stats.incomingMessages
  {
    var m := Outgoing(d, id, now);
    CountDirectionAppend(d.messages, m, OUTGOING);
    CountDirectionAppend(d.messages, m, INCOMING);
  }

  /**
   * Because the rebuild recomputes unread counters from the message list, a
   * counter zeroed by opening a conversation comes back after any send.
   */
  lemma SendAfterOpenRecountsUnread(d: Dashboard, p: string, id: int, now: int)
    requires p != "" && d.message != ""
    ensures SendMessage(OpenConversation(d, p), id, now).conversations
         == Group(d.messages + [Message(id, p, d.message, OUTGOING, SENT, now)])
  {
  }

  // ----- the development data set -----------------------------------------------

  /** The seven messages `getMockMessages` returns; timestamps are seconds since the epoch. */
  function MockMessages(): seq<Message> {
    [M1, M2, M3, M4, M5, M6, M7]
  }

  const M1 := Message(1, "5511999999999", "Olá, gostaria de saber mais sobre os serviços de automação.", INCOMING, "read", 1748961000)
  const M2 := Message(2, "5511999999999", "Olá! Sou o assistente virtual da Zynapse. Temos soluções de automação para diversos segmentos. Em qual área você tem interesse?", OUTGOING, "delivered", 1748961120)
  const M3 := Message(3, "5511999999999", "Estou interessado em automação para e-commerce.", INCOMING, "read", 1748961300)
  const M4 := Message(4, "5511999999999", "Excelente escolha! Nossa solução para e-commerce inclui chatbots inteligentes, automação de atendimento e integração com plataformas como Shopify e WooCommerce. Gostaria de agendar uma demonstração?", OUTGOING, "delivered", 1748961420)
  const M5 := Message(5, "5511888888888", "Bom dia, preciso de suporte técnico.", INCOMING, "read", 1749028500)
  const M6 := Message(6, "5511888888888", "Bom dia! Sou o assistente virtual da Zynapse. Em que posso ajudar com suporte técnico hoje?", OUTGOING, "delivered", 1749028560)
  const M7 := Message(7, "5511777777777", "Olá, vi o anúncio de vocês e gostaria de saber os preços.", INCOMING, "unread", 1749033900)

  const P9 := "5511999999999"
  const P8 := "5511888888888"
  const P7 := "5511777777777"

  /** The index holds `p` with the given unread counter and last activity. */
  predicate Holds(g: map<string, Conversation>, p: string, unread: nat, t: int) {
    p in g && g[p].unread == unread && g[p].lastActivity == Some(t)
  }

  // The development data, one message at a time.
  lemma MockPrefix1()
    ensures Group([M1]).Keys == {P9} && Holds(Group([M1]), P9, 0, 1748961000)
  {
    GroupSnoc([], M1);
    assert [M1] == [] + [M1];
  }

  lemma MockPrefix2()
    ensures Group([M1, M2]).Keys == {P9} && Holds(Group([M1, M2]), P9, 0, 1748961120)
  {
    MockPrefix1();
    GroupSnoc([M1], M2);
    assert [M1, M2] == [M1] + [M2];
  }

  lemma MockPrefix3()
    ensures Group([M1, M2, M3]).Keys == {P9} && Holds(Group([M1, M2, M3]), P9, 0, 1748961300)
  {
    MockPrefix2();
    GroupSnoc([M1, M2], M3);
    assert [M1, M2, M3] == [M1, M2] + [M3];
  }

  lemma MockPrefix4()
    ensures Group([M1, M2, M3, M4]).Keys == {P9} && Holds(Group([M1, M2, M3, M4]), P9, 0, 1748961420)
  {
    MockPrefix3();
    GroupSnoc([M1, M2, M3], M4);
    assert [M1, M2, M3, M4] == [M1, M2, M3] + [M4];
  }

  lemma MockPrefix5()
    ensures Group([M1, M2, M3, M4, M5]).Keys == {P9, P8} && Holds(Group([M1, M2, M3, M4, M5]), P9, 0, 1748961420) && Holds(Group([M1, M2, M3, M4, M5]), P8, 0, 1749028500)
  {
    MockPrefix4();
    GroupSnoc([M1, M2, M3, M4], M5);
    assert [M1, M2, M3, M4, M5] == [M1, M2, M3, M4] + [M5];
  }

  lemma MockPrefix6()
    ensures Group([M1, M2, M3, M4, M5, M6]).Keys == {P9, P8} && Holds(Group([M1, M2, M3, M4, M5, M6]), P9, 0, 1748961420) && Holds(Group([M1, M2, M3, M4, M5, M6]), P8, 0, 1749028560)
  {
    MockPrefix5();
    GroupSnoc([M1, M2, M3, M4, M5], M6);
    assert [M1, M2, M3, M4, M5, M6] == [M1, M2, M3, M4, M5] + [M6];
  }

  lemma MockGroup()
    ensures var g := Group(MockMessages());
      && g.Keys == {P9, P8, P7}
      && Holds(g, P9, 0, 1748961420) && Holds(g, P8, 0, 1749028560) && Holds(g, P7, 1, 1749033900)
  {
    MockPrefix6();
    GroupSnoc([M1, M2, M3, M4, M5, M6], M7);
    assert MockMessages() == [M1, M2, M3, M4, M5, M6] + [M7];
  }

  lemma MockActive()
    ensures |Group(MockMessages())| == 3
  {
    MockGroup();
    ThreeKeys(Group(MockMessages()), P9, P8, P7);
  }

  lemma ThreeKeys(g: map<string, Conversation>, a: string, b: string, c: string)
    requires g.Keys == {a, b, c} && a != b && b != c && a != c
    ensures |g| == 3
  {
    assert |g| == |g.Keys|;
  }

  lemma MockFirstSeen()
    ensures FirstSeen(MockMessages()) == [P9, P8, P7]
  {
    var ms := MockMessages();
    assert ms[..1][..0] == [];
    assert FirstSeen(ms[..1]) == [P9];
    assert ms[..2][..1] == ms[..1];
    assert FirstSeen(ms[..2]) == [P9];
    assert ms[..3][..2] == ms[..2];
    assert FirstSeen(ms[..3]) == [P9];
    assert ms[..4][..3] == ms[..3];
    assert FirstSeen(ms[..4]) == [P9];
    assert ms[..5][..4] == ms[..4];
    assert FirstSeen(ms[..5]) == [P9, P8];
    assert ms[..6][..5] == ms[..5];
    assert FirstSeen(ms[..6]) == [P9, P8];
    assert ms[..6] == ms[..|ms| - 1];
  }

  lemma MockCounts()
    ensures CountDirection(MockMessages(), INCOMING) == 4
    ensures CountDirection(MockMessages(), OUTGOING) == 3
  {
    var ms := MockMessages();
    assert ms[..1][..0] == [];
    assert CountDirection(ms[..1], INCOMING) == 1 && CountDirection(ms[..1], OUTGOING) == 0;
    assert ms[..2][..1] == ms[..1];
    assert CountDirection(ms[..2], INCOMING) == 1 && CountDirection(ms[..2], OUTGOING) == 1;
    assert ms[..3][..2] == ms[..2];
    assert CountDirection(ms[..3], INCOMING) == 2 && CountDirection(ms[..3], OUTGOING) == 1;
    assert ms[..4][..3] == ms[..3];
    assert CountDirection(ms[..4], INCOMING) == 2 && CountDirection(ms[..4], OUTGOING) == 2;
    assert ms[..5][..4] == ms[..4];
    assert CountDirection(ms[..5], INCOMING) == 3 && CountDirection(ms[..5], OUTGOING) == 2;
    assert ms[..6][..5] == ms[..5];
    assert CountDirection(ms[..6], INCOMING) == 3 && CountDirection(ms[..6], OUTGOING) == 3;
    assert ms[..6] == ms[..|ms| - 1];
  }

  lemma MockList()
    ensures |ConversationList(MockMessages())| > 0 && ConversationList(MockMessages())[0].phone == P7
  {
    MockListOf(MockMessages());
  }

  lemma MockListOf(ms: seq<Message>)
    requires ms == MockMessages()
    ensures |ConversationList(ms)| > 0 && ConversationList(ms)[0].phone == P7
  {
    MockGroup();
    LatestOfThree(Group(ms), P9, P8, P7);
    LatestListedFirst(ms, P7);
  }

  lemma LatestOfThree(g: map<string, Conversation>, a: string, b: string, c: string)
    requires g.Keys == {a, b, c}
    requires Activity(g[a]) < Activity(g[c]) && Activity(g[b]) < Activity(g[c])
    ensures forall q :: q in g && q != c ==> Activity(g[q]) < Activity(g[c])
  {
  }

  lemma MockLoadIsRebuild(d: Dashboard)
    ensures LoadMessages(d, MockMessages()).conversations == Group(MockMessages())
    ensures LoadMessages(d, MockMessages()).conversationList == ConversationList(MockMessages())
    ensures LoadMessages(d, MockMessages()).stats == CalculateStats(MockMessages(), Group(MockMessages()))
  {
  }

  lemma MockStats()
    ensures CalculateStats(MockMessages(), Group(MockMessages())) == Stats(7, 4, 3, 3, 75, AVERAGE_RESPONSE_TIME)
  {
    MockActive();
    MockCounts();
    assert ResponseRate(3, 4) == 75;
  }

  /**
   * Loading the development data gives seven messages in three
   * conversations, four received and three sent, and a 75% response rate.
   */
  lemma MockDashboardStats(d: Dashboard)
    ensures LoadMessages(d, MockMessages()).stats == Stats(7, 4, 3, 3, 75, AVERAGE_RESPONSE_TIME)
  {
    MockLoadIsRebuild(d);
    MockStats();
  }

  lemma MockConversations()
    ensures var g := Group(MockMessages());
      P7 in g && P8 in g && P9 in g && g[P7].unread == 1 && g[P8].unread == 0 && g[P9].unread == 0
    ensures |ConversationList(MockMessages())| > 0 && ConversationList(MockMessages())[0].phone == P7
  {
    MockGroup();
    MockList();
  }

  /**
   * In the development data only 5511777777777 has an unread message, and
   * its conversation, the most recent, is listed first.
   */
  lemma MockDashboardConversations(d: Dashboard)
    ensures var r := LoadMessages(d, MockMessages());
      && P7 in r.conversations && P8 in r.conversations && P9 in r.conversations
      && r.conversations[P7].unread == 1 && r.conversations[P8].unread == 0 && r.conversations[P9].unread == 0
      && |r.conversationList| > 0 && r.conversationList[0].phone == P7
  {
    MockLoadIsRebuild(d);
    MockConversations();
  }
}

=== FILE: dashboard_stats.dfy ===
/**
 * The dashboard's headline figures (`calculateStats` in
 * frontend/assets/js/whatsapp-dashboard.js).
 */
module DashboardStats {
  import opened Conversations

  /** The average response time is not computed: the dashboard shows a fixed text. */
  const AVERAGE_RESPONSE_TIME := "2m 30s"

  datatype Stats = Stats(
    totalMessages: nat,
    incomingMessages: nat,
    outgoingMessages: nat,
    activeConversations: nat,
    responseRate: nat,
    averageResponseTime: string)

  /** The number of messages whose direction is exactly `dir`. */
  function CountDirection(msgs: seq<Message>, dir: string): (n: nat)
    ensures n <= |msgs|
    decreases |msgs|
  {
    if msgs == [] then 0
    else CountDirection(msgs[..|msgs| - 1], dir) + (if msgs[|msgs| - 1].direction == dir then 1 else 0)
  }

  /** A message has one direction, so two direction counts never exceed the total. */
  lemma {:induction false} DirectionCountsBounded(msgs: seq<Message>, d1: string, d2: string)
    requires d1 != d2
    ensures CountDirection(msgs, d1) + CountDirection(msgs, d2) <= |msgs|
    decreases |msgs|
  {
    if msgs != [] {
      DirectionCountsBounded(msgs[..|msgs| - 1], d1, d2);
    }
  }

  /** Appending a message raises exactly the count of its own direction, by one. */
  lemma CountDirectionAppend(msgs: seq<Message>, m: Message, dir: string)
    ensures CountDirection(msgs + [m], dir) == CountDirection(msgs, dir) + (if m.direction == dir then 1 else 0)
  {
    assert (msgs + [m])[..|msgs|] == msgs;
  }

  /**
   * `Math.round(outgoing / incoming * 100)` in exact arithmetic, guarded
   * against an empty denominator: the result is the integer nearest to the
   * percentage, halves rounding up, and it exceeds 100 when more messages
   * were sent than received.
   */
  function ResponseRate(outgoing: nat, incoming: nat): (r: nat)
    ensures incoming == 0 ==> r == 0
    ensures incoming > 0 ==> incoming * (2 * r - 1) <= 200 * outgoing < incoming * (2 * r + 1)
    ensures outgoing <= incoming ==> r <= 100
  {
    if incoming > 0 then
      var r := (200 * outgoing + incoming) / (2 * incoming);
      DivBounds(200 * outgoing + incoming, 2 * incoming);
      if outgoing <= incoming then
        assert 200 * outgoing + incoming < 2 * incoming * 101;
        DivBelow(200 * outgoing + incoming, 2 * incoming, 101);
        r
      else r
    else 0
  }

  lemma DivBounds(a: nat, b: nat)
    requires b > 0
    ensures b * (a / b) <= a < b * (a / b + 1)
  {
  }

  lemma DivBelow(a: nat, b: nat, k: nat)
    requires b > 0 && a < b * k
    ensures a / b < k
  {
  }

  /** The figures computed from the message list and the conversation index. */
  function CalculateStats(msgs: seq<Message>, conversations: map<string, Conversation>): (s: Stats)
    ensures s.totalMessages == |msgs|
    ensures s.incomingMessages == CountDirection(msgs, INCOMING)
    ensures s.outgoingMessages == CountDirection(msgs, OUTGOING)
    ensures s.responseRate == ResponseRate(s.outgoingMessages, s.incomingMessages)
    ensures s.incomingMessages + s.outgoingMessages <= s.totalMessages
    ensures s.activeConversations == |conversations|
    ensures s.incomingMessages == 0 ==> s.responseRate == 0
    ensures s.outgoingMessages <= s.incomingMessages ==> s.responseRate <= 100
    ensures s.averageResponseTime == AVERAGE_RESPONSE_TIME
  {
    var incoming := CountDirection(msgs, INCOMING);
    var outgoing := CountDirection(msgs, OUTGOING);
    DirectionCountsBounded(msgs, INCOMING, OUTGOING);
    Stats(|msgs|, incoming, outgoing, |conversations|, ResponseRate(outgoing, incoming), AVERAGE_RESPONSE_TIME)
  }

  /** More replies than received messages give a rate above 100. */
  lemma RateCanExceedHundred()
    ensures ResponseRate(3, 2) == 150
  {
  }
}

=== FILE: js_text.dfy ===
/**
 * `String.prototype.trim` as the bot applies it to the model's reply: white
 * space and line terminators (section 22.1.3.32 of ECMAScript 2024, with the
 * WhiteSpace and LineTerminator sets of sections 12.2 and 12.3) are removed
 * from both ends.
 */
module JsText {

  /** The characters ECMAScript's `trim` strips. */
  predicate IsTrimmable(c: char) {
    // WhiteSpace: tab, vertical tab, form feed, space, no-break space, BOM
    || c == '\U{9}' || c == '\U{B}' || c == '\U{C}' || c == '\U{20}' || c == '\U{A0}' || c == '\U{FEFF}'
    // the rest of the space separators (Unicode category Zs)
    || c == '\U{1680}' || ('\U{2000}' <= c <= '\U{200A}') || c == '\U{202F}' || c == '\U{205F}' || c == '\U{3000}'
    // LineTerminator: line feed, carriage return, line and paragraph separators
    || c == '\U{A}' || c == '\U{D}' || c == '\U{2028}' || c == '\U{2029}'
  }

  /** Drops leading trimmable characters: the result is the suffix starting at the first other one. */
  function TrimStart(s: string): (r: string)
    ensures |r| <= |s| && r == s[|s| - |r|..]
    ensures forall k :: 0 <= k < |s| - |r| ==> IsTrimmable(s[k])
    ensures r != [] ==> !IsTrimmable(r[0])
    decreases |s|
  {
    if s != [] && IsTrimmable(s[0]) then TrimStart(s[1..]) else s
  }

  /** Drops trailing trimmable characters: the result is the prefix ending at the last other one. */
  function TrimEnd(s: string): (r: string)
    ensures |r| <= |s| && r == s[..|r|]
    ensures forall k :: |r| <= k < |s| ==> IsTrimmable(s[k])
    ensures r != [] ==> !IsTrimmable(r[|r| - 1])
    decreases |s|
  {
    if s != [] && IsTrimmable(s[|s| - 1]) then TrimEnd(s[..|s| - 1]) else s
  }

  /** The trimmed text neither starts nor ends with a trimmable character. */
  function Trim(s: string): (r: string)
    ensures |r| <= |s|
    ensures r != [] ==> !IsTrimmable(r[0]) && !IsTrimmable(r[|r| - 1])
  {
    TrimEnd(TrimStart(s))
  }

  /**
   * The trimmed text is a contiguous piece of the input, and everything
   * around it is trimmable: only white space was removed.
   */
  lemma TrimRemovesOnlyEnds(s: string)
    ensures exists i :: CutAt(s, i, Trim(s))
  {
    var front := TrimStart(s);
    var i := |s| - |front|;
    var r := TrimEnd(front);
    forall k | |r| <= k < |front| ensures IsTrimmable(front[k]) { }
    PieceOfPiece(s, i, front, r);
    assert CutAt(s, i, Trim(s));
  }

  /** Cutting a trimmable tail off a suffix whose cut-off head was trimmable leaves a piece with trimmable surroundings. */
  lemma PieceOfPiece(s: string, i: int, front: string, r: string)
    requires 0 <= i <= |s| && front == s[i..]
    requires forall k :: 0 <= k < i ==> IsTrimmable(s[k])
    requires |r| <= |front| && r == front[..|r|]
    requires forall k :: |r| <= k < |front| ==> IsTrimmable(front[k])
    ensures CutAt(s, i, r)
  {
    forall k | i + |r| <= k < |s| ensures IsTrimmable(s[k]) {
      assert s[k] == front[k - i];
    }
  }

  /** `r` is the piece of `s` starting at `i`, and everything around it is trimmable. */
  predicate CutAt(s: string, i: int, r: string) {
    && 0 <= i <= |s| - |r|
    && r == s[i..i + |r|]
    && (forall k :: 0 <= k < i ==> IsTrimmable(s[k]))
    && (forall k :: i + |r| <= k < |s| ==> IsTrimmable(s[k]))
  }

  /** Trimming twice is trimming once. */
  lemma TrimIdempotent(s: string)
    ensures Trim(Trim(s)) == Trim(s)
  {
    var r := Trim(s);
    if r != [] {
      assert TrimStart(r) == r;
      assert TrimEnd(r) == r;
    }
  }
}

=== FILE: options.dfy ===
/** An optional value, used where the source has `null`, `undefined` or a missing key. */
module Options {

  datatype Option<+T> = None | Some(value: T)
}

=== FILE: phone_format.dfy ===
/** `formatPhone` in frontend/assets/js/whatsapp-dashboard.js. */
module PhoneFormat {

  /**
   * A 13-character phone such as 5511999999999 is shown as
   * `+55 (11) 99999-9999`; the empty phone becomes the empty text and any
   * other length is shown as it is.
   */
  function FormatPhone(phone: string): (r: string)
    ensures phone == "" ==> r == ""
    ensures |phone| != 13 ==> r == phone
    ensures |phone| == 13 ==> |r| == 19
    ensures |phone| == 13 ==>
      r[0] == '+' && r[3] == ' ' && r[4] == '(' && r[7] == ')' && r[8] == ' ' && r[14] == '-'
  {
    if phone == "" then ""
    else if |phone| == 13 then
      "+" + phone[..2] + " (" + phone[2..4] + ") " + phone[4..9] + "-" + phone[9..]
    else phone
  }

  /** Drops the six layout characters of a formatted phone. */
  function Unformat(s: string): (r: string)
    requires |s| == 19
  {
    s[1..3] + s[5..7] + s[9..14] + s[15..]
  }

  /** Removing the layout characters gives back the phone that was formatted. */
  lemma FormatPhoneRoundTrip(phone: string)
    requires |phone| == 13
    ensures Unformat(FormatPhone(phone)) == phone
  {
    var r := FormatPhone(phone);
    assert r[1..3] == phone[..2];
    assert r[5..7] == phone[2..4];
    assert r[9..14] == phone[4..9];
    assert r[15..] == phone[9..];
    assert phone == phone[..2] + phone[2..4] + phone[4..9] + phone[9..];
  }

  predicate IsDigit(c: char) {
    '0' <= c <= '9'
  }

  function Digits(s: string): (r: string)
    ensures |r| <= |s|
    decreases |s|
  {
    if s == [] then [] else (if IsDigit(s[0]) then [s[0]] else []) + Digits(s[1..])
  }

  lemma {:induction false} DigitsOfConcat(a: string, b: string)
    ensures Digits(a + b) == Digits(a) + Digits(b)
    decreases |a|
  {
    if a != [] {
      assert (a + b)[0] == a[0];
      assert (a + b)[1..] == a[1..] + b;
      DigitsOfConcat(a[1..], b);
    } else {
      assert a + b == b;
    }
  }

  lemma {:induction false} DigitsOfDigits(s: string)
    requires forall i :: 0 <= i < |s| ==> IsDigit(s[i])
    ensures Digits(s) == s
    decreases |s|
  {
    if s != [] {
      DigitsOfDigits(s[1..]);
    }
  }

  /** For an all-digit phone, the digits of the formatted text, read in order, are the phone. */
  lemma FormatPhoneKeepsDigits(phone: string)
    requires |phone| == 13
    requires forall i :: 0 <= i < |phone| ==> IsDigit(phone[i])
    ensures Digits(FormatPhone(phone)) == phone
  {
    var a, b, c, e := phone[..2], phone[2..4], phone[4..9], phone[9..];
    var t1 := "+" + a;
    var t2 := t1 + " (";
    var t3 := t2 + b;
    var t4 := t3 + ") ";
    var t5 := t4 + c;
    var t6 := t5 + "-";
    assert Digits(t1) == a by {
      DigitsOfDigits(a);
      assert Digits("+") == [];
      DigitsOfConcat("+", a);
    }
    assert Digits(t2) == a by {
      assert Digits(" (") == [];
      DigitsOfConcat(t1, " (");
    }
    assert Digits(t3) == a + b by {
      DigitsOfDigits(b);
      DigitsOfConcat(t2, b);
    }
    assert Digits(t4) == a + b by {
      assert Digits(") ") == [];
      DigitsOfConcat(t3, ") ");
    }
    assert Digits(t5) == a + b + c by {
      DigitsOfDigits(c);
      DigitsOfConcat(t4, c);
    }
    assert Digits(t6) == a + b + c by {
      assert Digits("-") == [];
      DigitsOfConcat(t5, "-");
    }
    assert Digits(t6 + e) == a + b + c + e by {
      DigitsOfDigits(e);
      DigitsOfConcat(t6, e);
    }
    assert phone == a + b + c + e;
  }
}
